=== FILE: README.md ===
# A* 15-puzzle solver, modelled in Dafny

This project models the solving core of `baitaplon.py`, a desktop 15-puzzle game with an A* solver. It covers:

- **the board** (`PuzzleState`): 16 cells, row-major, holding a permutation of 0..15 with 0 as the blank. It has:
  - the blank lookup `_find_empty`;
  - the Manhattan-distance heuristic `_calculate_manhattan`;
  - `cost = moves + heuristic`;
  - the goal test `is_goal`;
  - the move generator `get_neighbors`;
  - the frontier order `__lt__`, which compares costs only (`Moves.Before`, used by `Search.CheapestIndex` and `Search.Iterate`);
  - `__eq__`/`__hash__` are not used by the search: the explored set holds `tuple(board)`, so it is a set of boards.
- **the solvability oracle** `PuzzleSolver.is_solvable`: inversions of the tiles, plus the blank's row counted from the bottom.
- **the search** `PuzzleSolver.solve`. It has:
  - early exits for unsolvable and already-solved boards;
  - a lazily-deleted priority frontier and an explored set of boards;
  - polling of the stop request once per iteration;
  - parent-chain path reconstruction;
  - the statistics it returns.
- **the manual-move click test** and **the custom-input check** of the GUI.
- **the scramblers** `shuffle_puzzle` and `create_random_solvable_puzzle`.

Modules, one per file:

- `Board` (board.dfy): boards, cells, the goal, the blank, the exchange of two cells, the input check.
- `Heuristic` (heuristic.dfy): the Manhattan distance.
- `Moves` (moves.dfy): search nodes, slides, the neighbour generator, the click test, admissibility.
- `Solvability` (solvability.dfy): inversions and the parity rule, and why slides keep the verdict.
- `Search` (search.dfy): the A* loop over an arena of nodes.
- `Shuffle` (shuffle.dfy): random scrambles, with the random picks given as an input sequence.

Modelling choices:

- **Search nodes.** `Moves.Node` carries the board, `moves` (g), the parent and the label of the last slide, `heuristic` (h) and `cost` (f). The parent is the index of the parent node in an arena: a sequence of every node created, which only grows. Python object references are not used.
- **Frontier.** The frontier is a sequence of arena indices. Each iteration removes the first entry of least cost. The source's `heapq` breaks ties among equal costs in its own way, and costs are the only thing `__lt__` compares. So every property proved here holds whichever of the cheapest entries is taken.
- **Run log.** The main loop also returns, for the contract only, the frontier at the head of each iteration and the board each iteration popped. `Search.Logged` says the recorded frontier sizes and the explored set come from such a run. Each logged iteration (`Search.Advance`) pops a least-cost entry and appends exactly the nodes `Search.Pushed` names, so the logged frontier sizes are those the source records.
- **Explored set.** The explored set is a set of boards, which is what `tuple(board)` keys in the source.
- **Goal test.** The source compares the board with the list `1, ..., 15, 0`. The model checks the same thing cell by cell, and `Board.IsGoalIffGoal` proves the two agree. The solved board `Board.Goal()` and the start board `Shuffle.Identity()` (0, 1, ..., 15) are functions built cell by cell, not literal lists.
- **Stop request.** The stop request combines `stop_callback` and the `is_solving` flag cleared by the GUI thread. It is an input function `stop`, where `stop(i)` is the request seen at the head of iteration `i`.
- **Termination.** The loop is proved to terminate. The measure is the finite set of length-16 sequences over 0..15 minus the explored boards, then the frontier length.
- **Directions.** The four directions of `get_neighbors` become the `Direction` datatype. A move label records the tile that slid and the direction it moved, which is the direction opposite the blank's.

## Model

| member | source | states |
|---|---|---|
| Board.Blank | baitaplon.py:23 | the result is the first cell holding 0: it holds 0 and no earlier cell does |
| Board.FindEmpty | baitaplon.py:21-24 | the (row, col) returned is on the 4x4 grid and the cell at row * 4 + col holds the blank |
| Board.Swap | baitaplon.py:56-60 | the two named cells trade contents and every other cell is unchanged |
| Board.SwapValid | baitaplon.py:56-60 | exchanging two cells of a permutation of 0..15 gives a permutation of 0..15 |
| Board.IsGoalIffGoal | baitaplon.py:36-38 | the goal test accepts exactly the board 1, 2, ..., 15, 0 |
| Board.GoalBoardValid | baitaplon.py:38 | a board the goal test accepts is a permutation of 0..15 with its blank in the last cell |
| Board.AcceptedInputIsValidBoard | baitaplon.py:692 | the input check (16 numbers whose value set is {0..15}) accepts exactly the valid boards, in both directions |
| Heuristic.ManhattanZeroIffGoal | baitaplon.py:26-38 | on a valid board the Manhattan distance (a natural number) is 0 if and only if the board passes the goal test |
| Heuristic.GoalHeuristicZero | baitaplon.py:26-38 | the heuristic of the solved board is 0 |
| Heuristic.StepChangesDistance | baitaplon.py:31-33 | moving a tile to an adjacent cell changes its distance from home by exactly one, up or down |
| Heuristic.SlideChangesHeuristicByOne | baitaplon.py:26-34 | any slide of the blank into an adjacent cell changes the heuristic of a valid board by exactly +1 or -1 |
| Moves.MakeNode | baitaplon.py:12-19 | a constructed node keeps its board, move count, parent and label, satisfies cost = moves + Manhattan(board), and has cost equal to moves exactly when its board is the goal |
| Moves.SlideValid | baitaplon.py:56-60 | a slide keeps the board a permutation of 0..15 and leaves the blank in the cell it moved into |
| Moves.Target | baitaplon.py:45-55 | a direction is kept exactly when the cell at the blank plus that direction's offset (-4, +4, -1, +1) is orthogonally adjacent to the blank, and the kept target is that cell |
| Moves.Expand | baitaplon.py:52-63 | trying one direction yields one node exactly when the target cell is on the grid, and that node is a correctly labelled successor whose board is the blank exchanged with the target |
| Moves.DirectionsOnGrid | baitaplon.py:45-55 | from any cell, between two and four of the four directions stay on the grid |
| Moves.Neighbors | baitaplon.py:40-65 | 2 to 4 neighbours are produced. Each is a valid board, one slide from the parent, with moves + 1, the parent link set to the expanded node, a label naming the tile that moved and its direction, and cost = moves + h. Every slide of the parent's board is among them |
| Moves.NeighborsComplete | baitaplon.py:45-62 | trying the four directions in order yields two to four successors, and every slide of the board is among them |
| Moves.Click | baitaplon.py:410-419 | a click changes the board exactly when the clicked cell is orthogonally adjacent to the blank; the changed board is the old one with the blank and the clicked tile exchanged, which is one slide |
| Moves.ClickAdjacentIff | baitaplon.py:415-416 | the row/column test of a click agrees with grid adjacency of the clicked cell and the blank |
| Moves.ClickReachesEverySlide | baitaplon.py:415-419 | every slide of a board can be made by clicking some cell |
| Moves.HeuristicAdmissible | baitaplon.py:756 | any sequence of slides from a valid board to the goal has at least as many slides as the board's Manhattan distance |
| Solvability.CountInversions | baitaplon.py:86-92 | the double loop counts the pairs i < j with flat[i] > flat[j] |
| Solvability.CheckSolvable | baitaplon.py:84-99 | the procedure (drop the blank, count inversions, take the blank's row from the bottom) returns the parity rule's verdict, and a board it rejects cannot reach the goal by any sequence of slides |
| Solvability.UnsolvableUnreachable | baitaplon.py:106-112 | along any sequence of slides from a board the test rejects, every board is rejected too, so the last one is not the goal |
| Solvability.SlidePreservesSolvability | baitaplon.py:84-99 | every slide of a valid board leaves the solvability verdict unchanged |
| Solvability.HorizontalSlideVerdict | baitaplon.py:94-99 | a sideways slide keeps both the tile order and the blank's row, so the verdict is unchanged |
| Solvability.VerticalSlideVerdict | baitaplon.py:94-99 | a vertical slide changes the inversion parity and the blank's row by one, so the verdict is unchanged |
| Solvability.VerticalSlideFlipsParity | baitaplon.py:87-92 | a vertical slide changes the number of inversions among the tiles by an odd amount |
| Solvability.TileRisesParity | baitaplon.py:87-92 | when the blank moves down a row, the tile below it moves back past three tiles, an odd change in the inversion count |
| Solvability.TileSinksParity | baitaplon.py:87-92 | when the blank moves up a row, the tile above it moves forward past three tiles, an odd change in the inversion count |
| Solvability.HorizontalSlideKeepsTiles | baitaplon.py:87 | a sideways slide leaves the blank-free tile order unchanged |
| Solvability.GoalSolvable | baitaplon.py:84-99 | the solved board passes the solvability test |
| Solvability.GoalBoardSolvable | baitaplon.py:84-99 | every board the goal test accepts passes the solvability test |
| Solvability.SwapInGoalUnsolvable | baitaplon.py:84-99 | exchanging two neighbouring tiles of a solved board (the blank untouched) gives a valid board that fails the test |
| Solvability.SwappedTilesUnsolvable | baitaplon.py:84-99 | the solved board with tiles i + 1 and i + 2 exchanged fails the test; i = 13 gives 14 and 15, and i = 0 gives 2, 1, 3, ..., 15, 0, for which `Search.Solve` therefore returns no path |
| Search.Remove | baitaplon.py:139 | removing one frontier entry keeps the others in order and shortens the frontier by one |
| Search.CheapestIndex | baitaplon.py:67-68 | no frontier entry comes before the chosen one under `__lt__` (cost only), and the chosen one comes before every earlier entry, so it is the first of least cost |
| Search.UnexploredCounts | baitaplon.py:167-169 | the nodes pushed for a list of neighbours are those whose boards are not explored, each exactly as often as it is listed; a neighbour with an explored board is not pushed at all |
| Search.UnexploredBoards | baitaplon.py:167-169 | every node pushed is a neighbour whose board is not explored, and every unexplored neighbour board is among the nodes pushed |
| Search.PathTo | baitaplon.py:152-156 | following parent links from an arena node back to the root yields a valid path from the initial board that ends at that node and has one more node than the node's move count; each node's parent index points at the node before it |
| Search.PathAdmissible | baitaplon.py:756 | a valid path that ends on the goal has at least as many moves as the initial board's heuristic |
| Search.GoalPath | baitaplon.py:151-156 | when the popped node holds the goal, the reconstructed path is a solution ending at that node |
| Search.SingletonPath | baitaplon.py:116-117 | when the initial board is the goal, the one-node path is a solution |
| Search.RecordSize | baitaplon.py:137 | after recording one more frontier size, the maximum is at least every size seen and is one of them |
| Search.Iterate | baitaplon.py:139-169 | the popped board is held by a frontier entry that no other entry comes before under `__lt__`; the arena only grows, and the new frontier is the old one without that entry, followed by new arena entries holding exactly the nodes the source pushes: nothing when the board was already explored (line 141) or is the goal (line 151), otherwise the node's neighbours, in order, whose boards are not explored once the popped board is (lines 144 and 167-169). Popping a stale entry drops it, with the explored set unchanged and the frontier shorter. Popping a new board adds it to the explored set. If that board is the goal, the path returned is a solution ending on it; otherwise the search invariant is kept. A path is returned exactly when the popped board is the goal and was unexplored |
| Search.MainLoop | baitaplon.py:125-169 | the loop ends with the goal path, or on a stop request seen at the head of the last iteration, or with an empty frontier. It returns a log of the run: the frontier at the head of each iteration, starting from the initial node alone, each obtained from the one before by popping a least-cost entry and pushing exactly the nodes the source pushes for it, given the boards popped before. The recorded sizes are the lengths of those frontiers and are at most the maximum. The explored set is exactly the set of popped boards, and on success the goal is the last of them. The counter raised on each new board (`explored_count`) equals the size of the explored set and is at most the number of iterations |
| Search.Start | baitaplon.py:125-130 | the loop starts from the initial node alone on the frontier, with nothing explored, no size recorded, a zero maximum and counter, and the search invariant and bookkeeping holding |
| Search.Round | baitaplon.py:137-169 | one pass of the loop records the current frontier size, pops a least-cost entry, counts the board if it is new, and extends the log by that step, whose pushes are exactly the source's; the search measure decreases; a path is returned only for the goal just popped |
| Search.BooksStep | baitaplon.py:137-145 | one iteration keeps the bookkeeping: the log still ends at the frontier, its pops are the explored boards, the maximum bounds the sizes, and the counter is the size of the explored set |
| Search.PopAdvance | baitaplon.py:139-169 | removing the heading entry and appending, as new arena entries, exactly the nodes the source pushes for it is one logged iteration |
| Search.PopOnly | baitaplon.py:139-156 | popping the heading entry of an explored board or of the goal, and pushing nothing, is one logged iteration |
| Search.RunStep | baitaplon.py:137-169 | a logged run extended by one more logged iteration is still a logged run, and the popped boards gain the new one |
| Search.ElementsIn | baitaplon.py:144 | the boards gathered from the log of pops are exactly the boards in it |
| Search.EmptyFrontierExhausted | baitaplon.py:132 | when the frontier runs dry, the explored boards contain the initial board, are closed under slides and contain no goal |
| Search.ExhaustedUnreachable | baitaplon.py:171-177 | after such an exhaustion no sequence of slides from the initial board reaches the goal |
| Search.ExhaustedGoalUnreachable | baitaplon.py:171-177 | an exhausted search shows that the goal is unreachable from the initial board |
| Search.Explore | baitaplon.py:125-177 | the reported flag is true exactly when a path is returned. A returned path is a solution with solution_length = length - 1. The explored statistic is the counter of newly explored boards (line 145), which equals the size of the explored set. A run that ends with no path and no stop request proves the goal unreachable. The recorded sizes and the explored set are those of a logged run from the initial board, in which every iteration pushes exactly what the source pushes, and a returned goal is among the explored boards. The frontier maximum bounds every observed size. A stop request ends the run with no path, and a stop at the first poll explores nothing |
| Search.Solve | baitaplon.py:101-177 | an unsolvable board returns no path with explored = 0 and max_frontier = 0. The goal board returns the one-node path with solution_length 0. Any returned path starts at the input, ends on the goal, takes one correctly labelled slide per step with moves rising by one, and has solution_length = length - 1. The statistics, the run log and the stop facts hold as in `Explore`; the explored set, the sizes and the stop flag are ghost results, as the source returns only the path and the statistics. Whenever no path is returned without a stop request, whether the parity test rejected the board or the frontier ran dry, no sequence of slides leads from the input to the goal |
| Shuffle.LegalTargets | baitaplon.py:437-441 | the candidate cells are 2 to 4 in number, each adjacent to the blank, and every adjacent cell is among them |
| Shuffle.ShuffleStep | baitaplon.py:434-445 | one scramble step is a slide of a valid board |
| Shuffle.Scramble | baitaplon.py:433-445 | any number of scramble steps keeps the board valid and keeps its solvability verdict |
| Shuffle.ShufflePuzzle | baitaplon.py:430-445 | the board panel's scramble, which starts from the solved board, always produces a valid board that passes the solvability test |
| Shuffle.ScrambleSolvedSolvable | baitaplon.py:430-445 | scrambling any board the goal test accepts gives a board that passes the solvability test |
| Shuffle.RandomPuzzleAsWritten | baitaplon.py:881-899 | the generator as written returns a valid board |
| Shuffle.RandomPuzzleAsWrittenNeverSolvable | baitaplon.py:883 | whatever the random picks, the generator as written returns a board the solvability test rejects |
| Shuffle.IdentityUnsolvable | baitaplon.py:883 | the start board 0, 1, ..., 15 fails the solvability test |
| Shuffle.ShuffleNeverReachesIdentity | baitaplon.py:883 | no scramble of the solved board is the board 0, 1, ..., 15 |

## Left out

- The tkinter GUI: widgets, menus, help text, replay animation and highlighting. The `is_solving` guard at the top of `tile_clicked` and `shuffle_puzzle` belongs to it, and is not part of `Moves.Click` or `Shuffle.ShufflePuzzle`.
- Threads. The `is_solving` flag cleared from another thread and `stop_callback` are folded into the input function `stop`, polled once per iteration.
- The `time` statistic. The model has no clock.
- `progress_callback`, called every 50 explorations. It only reports progress.
- The internals of `heapq` and its tie-break among equal costs. The model takes the first cheapest entry, and nothing proved depends on which cheapest entry is taken.
- The Vietnamese move labels. They become a `Direction` value naming the way the tile moved.
- Optimality of the returned path (`solution_length` equal to the shortest distance). What is proved: the path is a valid solution, no shorter than the initial heuristic, and the search terminates.
- Search.Solve: requires a valid board. The source does not check this itself. Its caller (line 510) passes the GUI's current board, which is always a permutation of 0..15. That board can be the solved board (lines 189 and 456), the demo board (line 467), a board changed by a click (line 418), a scramble (lines 431-445), a board from a replayed path (line 625), or a board accepted by the input check (line 692). On any other list, `index(0)` or the heuristic would fail or mislead.
- Search.Explore: the `solvable` flag on the stop and exhausted-frontier returns is modelled as written (false) without a claim about its meaning.
- Search.Solve: a search on a solvable board that ends without a stop request is not proved to find the goal. This would need the 15-puzzle's connectivity. What is proved is that such an ending leaves a closed set of explored boards with no goal, reached from the initial board, so no sequence of slides leads from the initial board to the goal (`Search.ExhaustedGoalUnreachable`).
- Shuffle.Scramble: the source runs exactly 1000 steps. The model accepts any number of picks, so 1000 is one case.
- Solvability.CheckSolvable: only one direction of "solvable" is proved: a rejected board cannot reach the goal. That an accepted board can reach it needs the 15-puzzle's connectivity, as for `Search.Solve` above.
- Solvability.CheckSolvable: the source's comprehension and `index(0)` run over Python lists. The model computes the same values as recursive functions on sequences.

## Findings

| source | as written | input that shows it | evidently intended | confidence | as-written member | corrected member |
|---|---|---|---|---|---|---|
| baitaplon.py:883 | `create_random_solvable_puzzle` scrambles the start board 0, 1, ..., 15. The parity test rejects that board, and every slide keeps the verdict | any picks, including none: the result is 0, 1, ..., 15 itself, which `is_solvable` rejects | start from the solved board 1, ..., 15, 0 as `shuffle_puzzle` does (line 431), so every result is solvable as the docstring promises | high (not executed) | Shuffle.RandomPuzzleAsWrittenNeverSolvable | Shuffle.ShufflePuzzle |

=== FILE: board.dfy ===
/**
 A 4x4 sliding-tile board: sixteen cells stored row-major (index = row * 4 + col),
 holding a permutation of 0..15 where 0 is the blank cell.
 */
module Board {

  datatype Option<+T> = None | Some(value: T)

  /** Number of cells on a side, and in all. */
  const Side: int := 4
  const Cells: int := 16


  function Row(i: int): int { i / Side }
  function Col(i: int): int { i % Side }

  /** A board is a permutation of 0..15 laid out in sixteen cells. */
  predicate ValidBoard(b: seq<int>) {
    && |b| == Cells
    && (forall i :: 0 <= i < |b| ==> 0 <= b[i] < Cells)
    && (forall i, j :: 0 <= i < j < |b| ==> b[i] != b[j])
  }

  /** What cell i holds in the solved arrangement. */
  function GoalCell(i: int): int {
    if i == Cells - 1 then 0 else i + 1
  }

  /** The solved arrangement 1, 2, ..., 15 followed by the blank. */
  function Goal(): (r: seq<int>)
    ensures IsGoal(r)
  {
    seq(Cells, i requires 0 <= i < Cells => GoalCell(i))
  }

  /** The goal test: equality with the solved arrangement, cell by cell. */
  predicate IsGoal(b: seq<int>) {
    |b| == Cells && forall i :: 0 <= i < |b| ==> b[i] == GoalCell(i)
  }

  /** Position of the first blank, as `list.index(0)` finds it. */
  function Blank(b: seq<int>): (e: nat)
    requires 0 in b
    ensures e < |b| && b[e] == 0
    ensures forall i :: 0 <= i < e ==> b[i] != 0
  {
    if b[0] == 0 then 0 else 1 + Blank(b[1..])
  }

  /** The blank's (row, col), as `_find_empty` reports it. */
  function FindEmpty(b: seq<int>): (rc: (int, int))
    requires ValidBoard(b) && 0 in b
    ensures 0 <= rc.0 < Side && 0 <= rc.1 < Side
    ensures b[rc.0 * Side + rc.1] == 0
  {
    var e := Blank(b);
    (Row(e), Col(e))
  }

  /** Exchange the contents of cells i and j. */
  function Swap(b: seq<int>, i: nat, j: nat): (r: seq<int>)
    requires i < |b| && j < |b|
    ensures |r| == |b| && r[i] == b[j] && r[j] == b[i]
    ensures forall k :: 0 <= k < |b| && k != i && k != j ==> r[k] == b[k]
  {
    b[i := b[j]][j := b[i]]
  }

  /** Two cells are orthogonal neighbours on the grid. */
  predicate Adjacent(i: int, j: int) {
    && 0 <= i < Cells && 0 <= j < Cells
    && ((Row(i) == Row(j) && (Col(i) - Col(j) == 1 || Col(j) - Col(i) == 1))
        || (Col(i) == Col(j) && (Row(i) - Row(j) == 1 || Row(j) - Row(i) == 1)))
  }

  /** Adjacent cells are one step apart in the linear layout, horizontally or vertically. */
  lemma AdjacentOffsets(i: int, j: int)
    requires Adjacent(i, j)
    ensures j == i + 1 || j == i - 1 || j == i + Side || j == i - Side
    ensures j == i + 1 || j == i - 1 ==> Row(i) == Row(j)
    ensures j == i + Side ==> Row(j) == Row(i) + 1
    ensures j == i - Side ==> Row(j) == Row(i) - 1
  {
  }

  /** On a valid board the blank exists and is the only zero. */
  lemma BlankUnique(b: seq<int>, i: int)
    requires ValidBoard(b) && 0 <= i < |b| && b[i] == 0
    ensures 0 in b && Blank(b) == i
  {
  }

  /** Exchanging two cells of a valid board gives a valid board with the same values. */
  lemma SwapValid(b: seq<int>, i: nat, j: nat)
    requires ValidBoard(b) && i < |b| && j < |b|
    ensures ValidBoard(Swap(b, i, j))
  {
    var r := Swap(b, i, j);
    forall p, q | 0 <= p < q < |r|
      ensures r[p] != r[q]
    {
      var p' := if p == i then j else if p == j then i else p;
      var q' := if q == i then j else if q == j then i else q;
      assert r[p] == b[p'] && r[q] == b[q'];
      assert p' != q';
      if p' < q' { assert b[p'] != b[q']; } else { assert b[q'] != b[p']; }
    }
  }

  /** The goal test accepts the solved arrangement and nothing else. */
  lemma IsGoalIffGoal(b: seq<int>)
    ensures IsGoal(b) <==> b == Goal()
  {
    if IsGoal(b) {
      assert forall i :: 0 <= i < |b| ==> b[i] == Goal()[i];
    }
  }

  /** A board that passes the goal test is a valid board with its blank in the last cell. */
  lemma GoalBoardValid(b: seq<int>)
    requires IsGoal(b)
    ensures ValidBoard(b)
    ensures 0 in b && Blank(b) == Cells - 1
  {
    assert forall i, j :: 0 <= i < j < |b| ==> b[i] != b[j] by {
      forall i, j | 0 <= i < j < |b| ensures b[i] != b[j] {
        assert b[i] == GoalCell(i) && b[j] == GoalCell(j);
      }
    }
    BlankUnique(b, Cells - 1);
  }

  lemma GoalValid()
    ensures ValidBoard(Goal())
    ensures 0 in Goal() && Blank(Goal()) == 15
  {
    GoalBoardValid(Goal());
  }

  /**
   The user-input check of the custom-puzzle dialog: sixteen numbers whose
   value set is exactly {0, ..., 15}.
   */
  predicate AcceptedInput(numbers: seq<int>) {
    |numbers| == Cells && (set x | x in numbers) == Range(Cells)
  }

  /** The integers 0..n-1, as Python's `set(range(n))`. */
  function Range(n: nat): (r: set<int>)
    ensures forall v :: v in r <==> 0 <= v < n
    ensures |r| == n
  {
    if n == 0 then {} else Range(n - 1) + {n - 1}
  }

  /** The dialog accepts exactly the valid boards: a 16-long list whose value set is 0..15 has no repeats. */
  lemma AcceptedInputIsValidBoard(numbers: seq<int>)
    ensures AcceptedInput(numbers) <==> ValidBoard(numbers)
  {
    if AcceptedInput(numbers) {
      AcceptedIsValid(numbers);
    }
    if ValidBoard(numbers) {
      ValidIsAccepted(numbers);
    }
  }

  lemma AcceptedIsValid(numbers: seq<int>)
    requires AcceptedInput(numbers)
    ensures ValidBoard(numbers)
  {
    var r := Range(Cells);
    forall i | 0 <= i < |numbers| ensures 0 <= numbers[i] < Cells {
      assert numbers[i] in (set x | x in numbers);
      assert numbers[i] in r;
    }
    forall i, j | 0 <= i < j < |numbers| ensures numbers[i] != numbers[j] {
      if numbers[i] == numbers[j] {
        DuplicateShrinksSet(numbers, i, j);
        assert false;
      }
    }
  }

  lemma ValidIsAccepted(numbers: seq<int>)
    requires ValidBoard(numbers)
    ensures AcceptedInput(numbers)
  {
    var vals := set x | x in numbers;
    DistinctSetCard(numbers);
    assert vals <= Range(Cells);
    SubsetEqualCard(vals, Range(Cells));
  }

  /** A sequence has at least as many positions as distinct values. */
  lemma {:induction false} SetCardAtMost(s: seq<int>)
    ensures |set x | x in s| <= |s|
  {
    if |s| > 0 {
      SetCardAtMost(s[1..]);
      assert (set x | x in s) == (set x | x in s[1..]) + {s[0]};
    }
  }

  /** A sequence with a repeated value has fewer distinct values than positions. */
  lemma DuplicateShrinksSet(s: seq<int>, i: int, j: int)
    requires 0 <= i < j < |s| && s[i] == s[j]
    ensures |set x | x in s| < |s|
  {
    var t := s[..j] + s[j + 1..];
    assert (set x | x in s) == (set x | x in t) by {
      forall x | x in s ensures x in t {
        var k :| 0 <= k < |s| && s[k] == x;
        if k < j { assert t[k] == x; }
        else if k == j { assert t[i] == x; }
        else { assert t[k - 1] == x; }
      }
    }
    SetCardAtMost(t);
  }

  /** A sequence without repeats has as many distinct values as positions. */
  lemma {:induction false} DistinctSetCard(s: seq<int>)
    requires forall i, j :: 0 <= i < j < |s| ==> s[i] != s[j]
    ensures |set x | x in s| == |s|
  {
    if |s| > 0 {
      DistinctSetCard(s[1..]);
      assert s[0] !in s[1..];
      assert (set x | x in s) == (set x | x in s[1..]) + {s[0]};
    }
  }

  lemma SubsetEqualCard(a: set<int>, b: set<int>)
    requires a <= b && |a| == |b|
    ensures a == b
  {
    assert b == a + (b - a);
    assert |b - a| == 0;
  }
}

=== FILE: heuristic.dfy ===
/**
 The Manhattan-distance heuristic of a board: for every non-blank cell, the grid
 distance between where its tile stands and where that tile stands in the goal.
 */
module Heuristic {
  import opened Board

  function Abs(x: int): nat {
    if x < 0 then -x else x
  }

  /**
   Grid distance between cell i and the home cell of tile v, which is cell v - 1.
   Python's `//` and `%` by 4 floor, which for a positive divisor agrees with
   Dafny's Euclidean operators on every integer.
   */
  function TileDistance(i: int, v: int): nat {
    Abs(Row(i) - Row(v - 1)) + Abs(Col(i) - Col(v - 1))
  }

  /** Contribution of cell i: zero for the blank, the tile's distance otherwise. */
  function Term(b: seq<int>, i: nat): nat
    requires i < |b|
  {
    if b[i] == 0 then 0 else TileDistance(i, b[i])
  }

  /** Sum of the contributions of cells 0..k-1. */
  function SumTo(b: seq<int>, k: nat): nat
    requires k <= |b|
  {
    if k == 0 then 0 else SumTo(b, k - 1) + Term(b, k - 1)
  }

  function Manhattan(b: seq<int>): nat
    requires |b| == Cells
  {
    SumTo(b, |b|)
  }

  /** A tile contributes nothing exactly when it stands on its home cell. */
  lemma TileDistanceZero(i: int, v: int)
    ensures TileDistance(i, v) == 0 <==> i == v - 1
  {
  }

  lemma {:induction false} SumZeroIffTermsZero(b: seq<int>, k: nat)
    requires k <= |b|
    ensures SumTo(b, k) == 0 <==> forall i :: 0 <= i < k ==> Term(b, i) == 0
  {
    if k > 0 {
      SumZeroIffTermsZero(b, k - 1);
    }
  }

  /** The heuristic vanishes on the goal and, among valid boards, only there. */
  lemma ManhattanZeroIffGoal(b: seq<int>)
    requires ValidBoard(b)
    ensures Manhattan(b) == 0 <==> IsGoal(b)
  {
    SumZeroIffTermsZero(b, |b|);
    if IsGoal(b) {
      forall i | 0 <= i < Cells ensures Term(b, i) == 0 {
        if i < 15 { TileDistanceZero(i, b[i]); }
      }
    }
    if Manhattan(b) == 0 {
      assert forall i :: 0 <= i < Cells ==> Term(b, i) == 0;
      forall i | 0 <= i < Cells && b[i] != 0 ensures b[i] == i + 1 {
        assert Term(b, i) == 0;
        TileDistanceZero(i, b[i]);
      }
      assert b[15] == 0;
      forall i | 0 <= i < Cells ensures b[i] == GoalCell(i) {
        if i < 15 { assert b[i] != b[15]; }
      }
    }
  }

  lemma GoalHeuristicZero()
    ensures Manhattan(Goal()) == 0
  {
    GoalValid();
    ManhattanZeroIffGoal(Goal());
  }

  /**
   Two boards whose contributions agree everywhere except at cells e and n have
   sums that differ by the change at those two cells.
   */
  lemma {:induction false} SumDifference(b: seq<int>, c: seq<int>, e: nat, n: nat, k: nat)
    requires |b| == |c| && k <= |b| && e < |b| && n < |b| && e != n
    requires forall i :: 0 <= i < |b| && i != e && i != n ==> Term(c, i) == Term(b, i)
    ensures SumTo(c, k) - SumTo(b, k)
         == (if e < k then Term(c, e) - Term(b, e) else 0)
          + (if n < k then Term(c, n) - Term(b, n) else 0)
  {
    if k > 0 {
      SumDifference(b, c, e, n, k - 1);
      if k - 1 != e && k - 1 != n {
        assert Term(c, k - 1) == Term(b, k - 1);
      }
    }
  }

  /** Moving a tile one cell changes its distance from home by exactly one. */
  lemma StepChangesDistance(e: int, n: int, t: int)
    requires Adjacent(e, n)
    ensures TileDistance(e, t) - TileDistance(n, t) == 1
         || TileDistance(e, t) - TileDistance(n, t) == -1
  {
  }

  /**
   Consistency: a slide of the blank at e into the adjacent cell n changes the
   heuristic by exactly one, because exactly one tile moves by one cell.
   */
  lemma SlideChangesHeuristicByOne(b: seq<int>, n: nat)
    requires ValidBoard(b) && 0 in b && Adjacent(Blank(b), n)
    ensures var h, h' := Manhattan(b), Manhattan(Swap(b, Blank(b), n));
            h' == h + 1 || h' == h - 1
  {
    var e := Blank(b);
    var c := Swap(b, e, n);
    var t := b[n];
    assert t != 0 by {
      if n < e { assert b[n] != b[e]; } else { assert b[e] != b[n]; }
    }
    forall i | 0 <= i < |b| && i != e && i != n
      ensures Term(c, i) == Term(b, i)
    {
    }
    SumDifference(b, c, e, n, |b|);
    assert Term(c, e) == TileDistance(e, t);
    assert Term(b, n) == TileDistance(n, t);
    StepChangesDistance(e, n, t);
  }
}

=== FILE: moves.dfy ===
/**
 Search nodes and the move generator: a slide exchanges the blank with one of
 its in-bounds orthogonal neighbours.
 */
module Moves {
  import opened Board
  import opened Heuristic

  /** Direction in which the blank moves; the tile that slides goes the opposite way. */
  datatype Direction = Up | Down | Left | Right

  /** The label of a slide: which tile moved, and the direction it moved on screen. */
  datatype Move = Move(tile: int, dir: Direction)

  /**
   A search node: a board with g (`moves`), h (`heuristic`), f (`cost`), the
   arena index of the node it was expanded from (`None` for the initial node)
   and the label of the slide that produced it.
   */
  datatype Node = Node(board: seq<int>, moves: nat, parent: Option<nat>,
                       lastMove: Option<Move>, heuristic: nat, cost: nat)

  /** The invariant every constructed node keeps: f = g + h with h the Manhattan distance. */
  predicate WellFormed(n: Node) {
    && ValidBoard(n.board)
    && n.heuristic == Manhattan(n.board)
    && n.cost == n.moves + n.heuristic
  }

  /** Frontier order: only the cost is compared. */
  predicate Before(a: Node, b: Node) {
    a.cost < b.cost
  }

  /** Every valid board has a blank: sixteen distinct values below 16 cover 0. */
  lemma ValidHasBlank(b: seq<int>)
    requires ValidBoard(b)
    ensures 0 in b
  {
    AcceptedInputIsValidBoard(b);
    assert 0 in Range(Cells);
    assert 0 in (set x | x in b);
  }

  /** Build a node, deriving the heuristic and cost from the board. */
  function MakeNode(board: seq<int>, moves: nat, parent: Option<nat>, lastMove: Option<Move>): (r: Node)
    requires ValidBoard(board)
    ensures WellFormed(r)
    ensures r.board == board && r.moves == moves && r.parent == parent && r.lastMove == lastMove
    ensures r.cost >= r.moves
    ensures r.cost == r.moves <==> IsGoal(board)
  {
    ManhattanZeroIffGoal(board);
    var h := Manhattan(board);
    Node(board, moves, parent, lastMove, h, moves + h)
  }

  /** `b` becomes `c` by exchanging the blank with an orthogonally adjacent cell. */
  predicate SlidesTo(b: seq<int>, c: seq<int>) {
    && ValidBoard(b) && 0 in b
    && exists n :: 0 <= n < Cells && Adjacent(Blank(b), n) && c == Swap(b, Blank(b), n)
  }

  /** A slide keeps the board a permutation and moves the blank into the adjacent cell. */
  lemma SlideValid(b: seq<int>, n: nat)
    requires ValidBoard(b) && 0 in b && Adjacent(Blank(b), n)
    ensures ValidBoard(Swap(b, Blank(b), n)) && 0 in Swap(b, Blank(b), n)
    ensures Blank(Swap(b, Blank(b), n)) == n
    ensures SlidesTo(b, Swap(b, Blank(b), n))
  {
    var c := Swap(b, Blank(b), n);
    SwapValid(b, Blank(b), n);
    BlankUnique(c, n);
  }

  /** Row and column step of each direction of the blank. */
  function Delta(d: Direction): (int, int) {
    match d
    case Up => (-1, 0)
    case Down => (1, 0)
    case Left => (0, -1)
    case Right => (0, 1)
  }

  /** The direction the sliding tile moves on screen when the blank moves in `d`. */
  function Opposite(d: Direction): Direction {
    match d
    case Up => Down
    case Down => Up
    case Left => Right
    case Right => Left
  }

  /** Cell the blank at e moves into in direction d, if that cell is on the grid. */
  function Target(e: nat, d: Direction): (r: Option<nat>)
    requires e < Cells
    ensures r.Some? <==> Adjacent(e, e + Offset(d))
    ensures r.Some? ==> r.value == e + Offset(d) && Adjacent(e, r.value)
  {
    var (dr, dc) := Delta(d);
    var nr, nc := Row(e) + dr, Col(e) + dc;
    if 0 <= nr < Side && 0 <= nc < Side then Some(nr * Side + nc) else None
  }

  /** Every adjacent cell is the target of one of the four directions. */
  lemma AdjacentIsTarget(e: nat, n: nat)
    requires e < Cells && Adjacent(e, n)
    ensures Target(e, Up) == Some(n) || Target(e, Down) == Some(n)
         || Target(e, Left) == Some(n) || Target(e, Right) == Some(n)
  {
    AdjacentOffsets(e, n);
  }

  /** Linear offset of a grid step in direction d. */
  function Offset(d: Direction): int {
    var (dr, dc) := Delta(d);
    dr * Side + dc
  }

  /**
   `mv` correctly labels the slide from b to c: the named tile is the one that
   left the cell where c has its blank for the cell where b had it, moving in
   the named direction.
   */
  predicate LabelsSlide(b: seq<int>, c: seq<int>, mv: Move) {
    && ValidBoard(b) && ValidBoard(c) && 0 in b && 0 in c
    && mv.tile == b[Blank(c)] && mv.tile == c[Blank(b)]
    && Offset(mv.dir) == Blank(b) - Blank(c)
  }

  /** `m` is a successor node of `node`, which sits at arena index `self`. */
  predicate Successor(node: Node, self: nat, m: Node) {
    && WellFormed(m)
    && SlidesTo(node.board, m.board)
    && m.moves == node.moves + 1
    && m.parent == Some(self)
    && m.lastMove.Some?
    && LabelsSlide(node.board, m.board, m.lastMove.value)
  }

  /** The node produced by moving the blank of `node` in direction d, if the move is on the grid. */
  function Expand(node: Node, self: nat, d: Direction): (r: seq<Node>)
    requires WellFormed(node)
    ensures 0 in node.board
    ensures |r| <= 1
    ensures |r| == 1 <==> Target(Blank(node.board), d).Some?
    ensures |r| == 1 ==> Successor(node, self, r[0])
    ensures |r| == 1 ==> r[0].board == Swap(node.board, Blank(node.board), Target(Blank(node.board), d).value)
  {
    ValidHasBlank(node.board);
    var e := Blank(node.board);
    match Target(e, d)
    case None => []
    case Some(n) =>
      SlideValid(node.board, n);
      var nb := Swap(node.board, e, n);
      var m := MakeNode(nb, node.moves + 1, Some(self), Some(Move(nb[e], Opposite(d))));
      SlideIsSuccessor(node, self, d, n, m);
      [m]
  }

  lemma SlideIsSuccessor(node: Node, self: nat, d: Direction, n: nat, m: Node)
    requires WellFormed(node) && 0 in node.board
    requires Target(Blank(node.board), d) == Some(n)
    requires ValidBoard(Swap(node.board, Blank(node.board), n))
    requires m == MakeNode(Swap(node.board, Blank(node.board), n), node.moves + 1, Some(self),
                           Some(Move(Swap(node.board, Blank(node.board), n)[Blank(node.board)], Opposite(d))))
    ensures Successor(node, self, m)
  {
    var e := Blank(node.board);
    SlideValid(node.board, n);
    AdjacentOffsets(e, n);
    assert LabelsSlide(node.board, m.board, m.lastMove.value);
  }

  /** Number of directions in ds that stay on the grid from cell e. */
  function OnGridCount(e: nat, ds: seq<Direction>): nat
    requires e < Cells
  {
    if |ds| == 0 then 0
    else (if Target(e, ds[0]).Some? then 1 else 0) + OnGridCount(e, ds[1..])
  }

  /** Every node of r is a successor of `node`. */
  predicate AllSuccessors(node: Node, self: nat, r: seq<Node>) {
    forall k :: 0 <= k < |r| ==> Successor(node, self, r[k])
  }

  /** Some node of r holds board c. */
  predicate HasBoard(r: seq<Node>, c: seq<int>) {
    exists k :: 0 <= k < |r| && r[k].board == c
  }

  lemma ConcatNodes(node: Node, self: nat, a: seq<Node>, b: seq<Node>)
    requires AllSuccessors(node, self, a) && AllSuccessors(node, self, b)
    ensures AllSuccessors(node, self, a + b)
    ensures forall c :: HasBoard(a, c) || HasBoard(b, c) ==> HasBoard(a + b, c)
  {
    forall k | 0 <= k < |a + b| ensures Successor(node, self, (a + b)[k]) {
      if k < |a| { assert (a + b)[k] == a[k]; } else { assert (a + b)[k] == b[k - |a|]; }
    }
    forall c | HasBoard(a, c) || HasBoard(b, c) ensures HasBoard(a + b, c) {
      if HasBoard(a, c) {
        var k :| 0 <= k < |a| && a[k].board == c;
        assert (a + b)[k] == a[k];
      } else {
        var k :| 0 <= k < |b| && b[k].board == c;
        assert (a + b)[|a| + k] == b[k];
      }
    }
  }

  /** The successors obtained by trying the directions ds in order. */
  function NeighborsFrom(node: Node, self: nat, ds: seq<Direction>): (r: seq<Node>)
    requires WellFormed(node)
    ensures 0 in node.board
    ensures |r| == OnGridCount(Blank(node.board), ds)
    ensures AllSuccessors(node, self, r)
    ensures forall d :: d in ds && Target(Blank(node.board), d).Some? ==>
              HasBoard(r, Swap(node.board, Blank(node.board), Target(Blank(node.board), d).value))
    decreases |ds|
  {
    if |ds| == 0 then
      ValidHasBlank(node.board);
      []
    else
      var x := Expand(node, self, ds[0]);
      var rest := NeighborsFrom(node, self, ds[1..]);
      ConcatNodes(node, self, x, rest);
      assert forall d :: d in ds ==> d == ds[0] || d in ds[1..];
      assert |x| == 1 ==> HasBoard(x, x[0].board);
      x + rest
  }

  /** The directions tried, in order: the blank moves up, down, left, right. */
  const Directions: seq<Direction> := [Up, Down, Left, Right]

  /**
   The successors of a node. `self` is the arena index of `node`, which becomes
   each successor's parent. Blanks in a corner have two successors, on an edge
   three, inside four; every slide of the board is among them.
   */
  function Neighbors(node: Node, self: nat): (r: seq<Node>)
    requires WellFormed(node)
    ensures 2 <= |r| <= 4
    ensures forall k :: 0 <= k < |r| ==> Successor(node, self, r[k])
    ensures forall c :: SlidesTo(node.board, c) <==> exists k :: 0 <= k < |r| && r[k].board == c
  {
    NeighborsComplete(node, self);
    NeighborsFrom(node, self, Directions)
  }

  /** Trying all four directions gives two to four successors, and every slide is among them. */
  lemma NeighborsComplete(node: Node, self: nat)
    requires WellFormed(node)
    ensures 2 <= |NeighborsFrom(node, self, Directions)| <= 4
    ensures forall c :: SlidesTo(node.board, c) ==> HasBoard(NeighborsFrom(node, self, Directions), c)
  {
    ValidHasBlank(node.board);
    DirectionsOnGrid(Blank(node.board));
    forall c | SlidesTo(node.board, c)
      ensures HasBoard(NeighborsFrom(node, self, Directions), c)
    {
      SlideAmongNeighbors(node, self, c);
    }
  }

  /** From any cell, two to four of the four directions stay on the grid. */
  lemma DirectionsOnGrid(e: nat)
    requires e < Cells
    ensures 2 <= OnGridCount(e, Directions) <= 4
  {
    var ds := Directions;
    assert ds[1..] == [Down, Left, Right] && ds[1..][1..] == [Left, Right];
    assert ds[1..][1..][1..] == [Right] && ds[1..][1..][1..][1..] == [];
    assert Target(e, Up).Some? <==> Row(e) > 0;
    assert Target(e, Down).Some? <==> Row(e) < Side - 1;
    assert Target(e, Left).Some? <==> Col(e) > 0;
    assert Target(e, Right).Some? <==> Col(e) < Side - 1;
    var right := if Col(e) < Side - 1 then 1 else 0;
    assert OnGridCount(e, ds[1..][1..][1..]) == right;
    var left := if Col(e) > 0 then 1 else 0;
    assert OnGridCount(e, ds[1..][1..]) == left + right;
    var down := if Row(e) < Side - 1 then 1 else 0;
    assert OnGridCount(e, ds[1..]) == down + left + right;
    var up := if Row(e) > 0 then 1 else 0;
    assert OnGridCount(e, ds) == up + down + left + right;
  }

  /** Each slide of the board is produced by one of the four directions. */
  lemma SlideAmongNeighbors(node: Node, self: nat, c: seq<int>)
    requires WellFormed(node)
    requires SlidesTo(node.board, c)
    ensures HasBoard(NeighborsFrom(node, self, Directions), c)
  {
    var e := Blank(node.board);
    var n :| 0 <= n < Cells && Adjacent(e, n) && c == Swap(node.board, e, n);
    AdjacentIsTarget(e, n);
    assert Up in Directions && Down in Directions && Left in Directions && Right in Directions;
  }

  /** Row and column of the cell at (row, col). */
  lemma CellCoords(row: int, col: int)
    requires 0 <= row < Side && 0 <= col < Side
    ensures Row(row * Side + col) == row && Col(row * Side + col) == col
  {
  }

  /**
   The manual-move test of a click on (row, col): the clicked cell and the blank
   share a column and are one row apart, or share a row and are one column apart.
   */
  predicate ClickAdjacent(row: int, col: int, emptyRow: int, emptyCol: int) {
    || (Abs(row - emptyRow) == 1 && col == emptyCol)
    || (Abs(col - emptyCol) == 1 && row == emptyRow)
  }

  /** The click test agrees with grid adjacency of the clicked cell and the blank. */
  lemma ClickAdjacentIff(row: int, col: int, e: int)
    requires 0 <= row < Side && 0 <= col < Side && 0 <= e < Cells
    ensures ClickAdjacent(row, col, Row(e), Col(e)) <==> Adjacent(e, row * Side + col)
  {
    CellCoords(row, col);
  }

  /** A click on a grid cell slides its tile into the blank when the two are adjacent. */
  function Click(b: seq<int>, row: int, col: int): (r: seq<int>)
    requires ValidBoard(b) && 0 <= row < Side && 0 <= col < Side
    ensures 0 in b
    ensures r != b <==> Adjacent(Blank(b), row * Side + col)
    ensures r != b ==> r == Swap(b, Blank(b), row * Side + col) && SlidesTo(b, r)
  {
    ValidHasBlank(b);
    var clicked := row * Side + col;
    var e := Blank(b);
    ClickAdjacentIff(row, col, e);
    if ClickAdjacent(row, col, Row(e), Col(e)) then
      SlideValid(b, clicked);
      assert Swap(b, clicked, e) == Swap(b, e, clicked);
      assert Swap(b, e, clicked)[clicked] == 0 != b[clicked];
      Swap(b, clicked, e)
    else
      b
  }

  /** Every slide can be made by clicking the tile that should move. */
  lemma ClickReachesEverySlide(b: seq<int>, c: seq<int>)
    requires SlidesTo(b, c)
    ensures exists row, col :: 0 <= row < Side && 0 <= col < Side && Click(b, row, col) == c
  {
    var e := Blank(b);
    var n :| 0 <= n < Cells && Adjacent(e, n) && c == Swap(b, e, n);
    assert Swap(b, n, e) == c;
    assert Click(b, Row(n), Col(n)) == c;
  }

  /** Consecutive boards of a sequence are related by one slide each. */
  predicate SlidePath(bs: seq<seq<int>>) {
    forall i :: 0 <= i < |bs| - 1 ==> SlidesTo(bs[i], bs[i + 1])
  }

  /** No sequence of slides starting at b ends on the goal. */
  ghost predicate GoalUnreachable(b: seq<int>) {
    forall bs :: |bs| >= 1 && bs[0] == b && SlidePath(bs) ==> !IsGoal(bs[|bs| - 1])
  }

  /**
   Admissibility: reaching the goal from a valid board takes at least as many
   slides as the board's Manhattan distance.
   */
  lemma {:induction false} HeuristicAdmissible(bs: seq<seq<int>>)
    requires |bs| >= 1 && ValidBoard(bs[0]) && SlidePath(bs) && IsGoal(bs[|bs| - 1])
    ensures Manhattan(bs[0]) <= |bs| - 1
  {
    if |bs| == 1 {
      IsGoalIffGoal(bs[0]);
      GoalHeuristicZero();
    } else {
      var b := bs[0];
      assert SlidesTo(b, bs[1]);
      var e := Blank(b);
      var n :| 0 <= n < Cells && Adjacent(e, n) && bs[1] == Swap(b, e, n);
      SlideValid(b, n);
      SlideChangesHeuristicByOne(b, n);
      assert SlidePath(bs[1..]) by {
        forall i | 0 <= i < |bs[1..]| - 1 ensures SlidesTo(bs[1..][i], bs[1..][i + 1]) {
          assert SlidesTo(bs[i + 1], bs[i + 2]);
        }
      }
      HeuristicAdmissible(bs[1..]);
    }
  }
}

=== FILE: search.dfy ===
/**
 The A* search. Nodes live in an arena (a sequence that only grows) and refer
 to their parent by index; the frontier is a sequence of arena indices from
 which the cheapest entry is removed, with stale entries (boards already
 explored) skipped when they come up; the explored set holds boards.
 */
module Search {
  import opened Board
  import opened Heuristic
  import opened Moves
  import opened Solvability

  /** The statistics returned with every outcome. */
  datatype Stats = Stats(solvable: bool, explored: nat, maxFrontier: nat, solutionLength: Option<nat>)

  /** A path from the initial board to the goal, if one was found, and the statistics. */
  datatype Outcome = Outcome(path: Option<seq<Node>>, stats: Stats)

  /** One step of a solution path: a slide, one more move, correctly labelled. */
  predicate Step(a: Node, b: Node) {
    && SlidesTo(a.board, b.board)
    && b.moves == a.moves + 1
    && b.lastMove.Some?
    && LabelsSlide(a.board, b.board, b.lastMove.value)
  }

  /**
   A solution path: it starts at the initial node (no parent, no moves), every
   node keeps f = g + h, node i has made i moves, and consecutive nodes are
   one step apart.
   */
  predicate ValidPath(path: seq<Node>, initial: seq<int>) {
    && |path| >= 1
    && path[0].board == initial && path[0].moves == 0 && path[0].parent == None
    && (forall i :: 0 <= i < |path| ==> WellFormed(path[i]) && path[i].moves == i)
    && (forall i :: 0 <= i < |path| - 1 ==> Step(path[i], path[i + 1]))
  }

  /** Node k of the arena was expanded from an earlier node, its parent. */
  predicate Linked(arena: seq<Node>, k: nat)
    requires k < |arena|
  {
    && arena[k].parent.Some?
    && arena[k].parent.value < k
    && Successor(arena[arena[k].parent.value], arena[k].parent.value, arena[k])
  }

  /** The arena is rooted at the initial node and every later node links back to an earlier one. */
  predicate ArenaOk(arena: seq<Node>, initial: seq<int>) {
    && |arena| >= 1
    && arena[0].board == initial && arena[0].moves == 0 && arena[0].parent == None
    && WellFormed(arena[0])
    && (forall k :: 1 <= k < |arena| ==> Linked(arena, k))
  }

  /** Every frontier entry is an index into an arena of n nodes. */
  predicate InArena(frontier: seq<nat>, n: nat) {
    forall i :: 0 <= i < |frontier| ==> frontier[i] < n
  }

  /** Some frontier entry holds board c. */
  predicate OnFrontier(arena: seq<Node>, frontier: seq<nat>, c: seq<int>) {
    exists i :: 0 <= i < |frontier| && frontier[i] < |arena| && arena[frontier[i]].board == c
  }

  /**
   The search invariant: every frontier entry is an arena index; no explored
   board is the goal; every arena node is explored or still on the frontier;
   and every slide out of an explored board leads to an explored board or to
   one waiting on the frontier.
   */
  ghost predicate Inv(arena: seq<Node>, frontier: seq<nat>, explored: set<seq<int>>, initial: seq<int>) {
    && ArenaOk(arena, initial)
    && InArena(frontier, |arena|)
    && ExploredOk(explored)
    && Covered(arena, frontier, explored)
    && Closed(arena, frontier, explored)
  }

  /** No explored board is the goal. */
  predicate ExploredOk(explored: set<seq<int>>) {
    forall b :: b in explored ==> !IsGoal(b)
  }

  /** Every arena node is explored or still on the frontier. */
  predicate Covered(arena: seq<Node>, frontier: seq<nat>, explored: set<seq<int>>) {
    forall k :: 0 <= k < |arena| ==> arena[k].board in explored || k in frontier
  }

  /** Every slide out of an explored board leads to an explored board or to one on the frontier. */
  ghost predicate Closed(arena: seq<Node>, frontier: seq<nat>, explored: set<seq<int>>) {
    forall b, c :: b in explored && SlidesTo(b, c) ==> c in explored || OnFrontier(arena, frontier, c)
  }

  /**
   What a search that ran out of frontier has established: it explored the
   initial board, every slide out of an explored board stays among the explored
   boards, and none of them is the goal. So the goal is unreachable from the
   initial board.
   */
  ghost predicate Exhausted(explored: set<seq<int>>, initial: seq<int>) {
    && initial in explored
    && (forall b, c :: b in explored && SlidesTo(b, c) ==> c in explored)
    && (forall b :: b in explored ==> !IsGoal(b))
  }

  /** No sequence of slides from the initial board of an exhausted search reaches the goal. */
  lemma {:induction false} ExhaustedUnreachable(explored: set<seq<int>>, initial: seq<int>, bs: seq<seq<int>>)
    requires Exhausted(explored, initial)
    requires |bs| >= 1 && bs[0] == initial && SlidePath(bs)
    ensures forall i :: 0 <= i < |bs| ==> bs[i] in explored && !IsGoal(bs[i])
  {
    if |bs| > 1 {
      var front := bs[..|bs| - 1];
      assert SlidePath(front) by {
        forall i | 0 <= i < |front| - 1 ensures SlidesTo(front[i], front[i + 1]) {
          assert front[i] == bs[i] && front[i + 1] == bs[i + 1];
        }
      }
      ExhaustedUnreachable(explored, initial, front);
      assert front[|front| - 1] == bs[|bs| - 2];
      assert SlidesTo(bs[|bs| - 2], bs[|bs| - 1]);
      forall i | 0 <= i < |bs| ensures bs[i] in explored && !IsGoal(bs[i]) {
        if i < |front| { assert bs[i] == front[i]; }
      }
    }
  }

  /** Adding a board to the explored set raises its size by one exactly when the board is new. */
  lemma AddedCount(explored: set<seq<int>>, board: seq<int>)
    ensures |explored + {board}| == |explored| + if board in explored then 0 else 1
  {
    if board in explored {
      assert explored + {board} == explored;
    }
  }

  /** An exhausted search proves the goal unreachable from its initial board. */
  lemma ExhaustedGoalUnreachable(explored: set<seq<int>>, initial: seq<int>)
    requires Exhausted(explored, initial)
    ensures GoalUnreachable(initial)
  {
    forall bs | |bs| >= 1 && bs[0] == initial && SlidePath(bs)
      ensures !IsGoal(bs[|bs| - 1])
    {
      ExhaustedUnreachable(explored, initial, bs);
    }
  }

  /** All sequences of length n over 0..15: a finite set that holds every board. */
  ghost function Sequences(n: nat): set<seq<int>> {
    if n == 0 then {[]}
    else set v: int, s: seq<int> | 0 <= v < Cells && s in Sequences(n - 1) :: [v] + s
  }

  lemma {:induction false} SequencesComplete(s: seq<int>)
    requires forall i :: 0 <= i < |s| ==> 0 <= s[i] < Cells
    ensures s in Sequences(|s|)
  {
    if |s| > 0 {
      SequencesComplete(s[1..]);
      assert s == [s[0]] + s[1..];
    }
  }

  /** The frontier without its entry at pos. */
  function Remove(f: seq<nat>, pos: nat): (r: seq<nat>)
    requires pos < |f|
    ensures |r| == |f| - 1
    ensures forall i :: 0 <= i < pos ==> r[i] == f[i]
    ensures forall i :: pos <= i < |r| ==> r[i] == f[i + 1]
  {
    f[..pos] + f[pos + 1..]
  }

  /** The indices a, a + 1, ..., a + n - 1. */
  function Span(a: nat, n: nat): (r: seq<nat>)
    ensures |r| == n
    ensures forall i :: 0 <= i < n ==> r[i] == a + i
  {
    seq(n, i requires 0 <= i < n => a + i)
  }

  /** The neighbours whose boards are not yet explored, in order: those the search pushes. */
  function Unexplored(nbrs: seq<Node>, explored: set<seq<int>>): (r: seq<Node>)
    ensures |r| <= |nbrs|
    decreases |nbrs|
  {
    if |nbrs| == 0 then []
    else (if nbrs[0].board in explored then [] else [nbrs[0]]) + Unexplored(nbrs[1..], explored)
  }

  /**
   Unexplored keeps each neighbour exactly as often as it is listed when its
   board is unexplored, and drops it otherwise: nothing is pushed twice that
   was not listed twice.
   */
  lemma {:induction false} UnexploredCounts(nbrs: seq<Node>, explored: set<seq<int>>)
    ensures forall m :: multiset(Unexplored(nbrs, explored))[m] == if m.board in explored then 0 else multiset(nbrs)[m]
    decreases |nbrs|
  {
    if |nbrs| > 0 {
      UnexploredCounts(nbrs[1..], explored);
      assert nbrs == [nbrs[0]] + nbrs[1..];
      var head := if nbrs[0].board in explored then [] else [nbrs[0]];
      assert Unexplored(nbrs, explored) == head + Unexplored(nbrs[1..], explored);
      assert multiset(Unexplored(nbrs, explored)) == multiset(head) + multiset(Unexplored(nbrs[1..], explored));
    }
  }

  /**
   The nodes pushed are neighbours with unexplored boards, and every unexplored
   neighbour board is among them.
   */
  lemma UnexploredBoards(nbrs: seq<Node>, explored: set<seq<int>>)
    ensures forall k :: 0 <= k < |Unexplored(nbrs, explored)| ==>
              Unexplored(nbrs, explored)[k] in nbrs && Unexplored(nbrs, explored)[k].board !in explored
    ensures forall c :: HasBoard(nbrs, c) && c !in explored ==> HasBoard(Unexplored(nbrs, explored), c)
  {
    var r := Unexplored(nbrs, explored);
    UnexploredCounts(nbrs, explored);
    forall k | 0 <= k < |r| ensures r[k] in nbrs && r[k].board !in explored {
      assert r[k] in multiset(r);
    }
    forall c | HasBoard(nbrs, c) && c !in explored ensures HasBoard(r, c) {
      var k :| 0 <= k < |nbrs| && nbrs[k].board == c;
      assert nbrs[k] in multiset(nbrs);
      assert nbrs[k] in multiset(r);
      var j :| 0 <= j < |r| && r[j] == nbrs[k];
    }
  }

  /**
   The node that heads the frontier under the node order: no entry comes
   before it, and it comes before every earlier entry (the first of least cost).
   */
  method CheapestIndex(arena: seq<Node>, frontier: seq<nat>) returns (pos: nat)
    requires |frontier| > 0
    requires InArena(frontier, |arena|)
    ensures pos < |frontier|
    ensures forall i :: 0 <= i < |frontier| ==> !Before(arena[frontier[i]], arena[frontier[pos]])
    ensures forall i :: 0 <= i < pos ==> Before(arena[frontier[pos]], arena[frontier[i]])
  {
    pos := 0;
    var i := 1;
    while i < |frontier|
      invariant 1 <= i <= |frontier| && pos < i
      invariant forall j :: 0 <= j < i ==> arena[frontier[pos]].cost <= arena[frontier[j]].cost
      invariant forall j :: 0 <= j < pos ==> arena[frontier[pos]].cost < arena[frontier[j]].cost
    {
      if arena[frontier[i]].cost < arena[frontier[pos]].cost {
        pos := i;
      }
      i := i + 1;
    }
  }

  /** Every arena node keeps f = g + h. */
  lemma NodeWellFormed(arena: seq<Node>, initial: seq<int>, k: nat)
    requires ArenaOk(arena, initial) && k < |arena|
    ensures WellFormed(arena[k])
  {
    if k > 0 {
      assert Linked(arena, k);
    }
  }

  /** Appending a valid step to a valid path gives a valid path. */
  lemma ExtendPath(path: seq<Node>, initial: seq<int>, x: Node)
    requires ValidPath(path, initial)
    requires WellFormed(x) && Step(path[|path| - 1], x)
    ensures ValidPath(path + [x], initial)
  {
    var p := path + [x];
    forall i | 0 <= i < |p| - 1 ensures Step(p[i], p[i + 1]) {
      if i < |path| - 1 {
        assert p[i] == path[i] && p[i + 1] == path[i + 1];
      } else {
        assert p[i] == path[|path| - 1] && p[i + 1] == x;
      }
    }
    forall i | 0 <= i < |p| ensures WellFormed(p[i]) && p[i].moves == i {
      if i < |path| { assert p[i] == path[i]; } else { assert p[i] == x; }
    }
  }

  /** Each node after the first records, as its parent, the arena index of the node before it. */
  predicate ParentLinks(path: seq<Node>, arena: seq<Node>) {
    forall i :: 0 < i < |path| ==>
      path[i].parent.Some? && path[i].parent.value < |arena| && arena[path[i].parent.value] == path[i - 1]
  }

  lemma ExtendLinks(path: seq<Node>, arena: seq<Node>, x: Node)
    requires |path| >= 1 && ParentLinks(path, arena)
    requires x.parent.Some? && x.parent.value < |arena| && arena[x.parent.value] == path[|path| - 1]
    ensures ParentLinks(path + [x], arena)
  {
    var q := path + [x];
    forall i | 0 < i < |q|
      ensures q[i].parent.Some? && q[i].parent.value < |arena| && arena[q[i].parent.value] == q[i - 1]
    {
      if i < |path| { assert q[i] == path[i] && q[i - 1] == path[i - 1]; }
    }
  }

  /** A node of the arena after the root is a successor of its parent. */
  lemma ArenaLink(arena: seq<Node>, initial: seq<int>, k: nat)
    requires ArenaOk(arena, initial) && 1 <= k < |arena|
    ensures arena[k].parent.Some? && arena[k].parent.value < k
    ensures Step(arena[arena[k].parent.value], arena[k]) && WellFormed(arena[k])
  {
    assert Linked(arena, k);
  }

  /**
   The path to arena node k, recovered by following parent links back to the
   initial node: it is a valid path that ends at node k, it has one node more
   than node k has moves, and each node's parent index points at the node
   before it.
   */
  function PathTo(arena: seq<Node>, initial: seq<int>, k: nat): (path: seq<Node>)
    requires ArenaOk(arena, initial) && k < |arena|
    ensures ValidPath(path, initial) && ParentLinks(path, arena)
    ensures path[|path| - 1] == arena[k]
    ensures |path| == arena[k].moves + 1
    decreases k
  {
    if k == 0 then
      [arena[0]]
    else
      ArenaLink(arena, initial, k);
      var p := arena[k].parent.value;
      var prefix := PathTo(arena, initial, p);
      ExtendPath(prefix, initial, arena[k]);
      ExtendLinks(prefix, arena, arena[k]);
      prefix + [arena[k]]
  }

  /** A solution path has at least as many moves as the initial board's heuristic. */
  lemma PathAdmissible(path: seq<Node>, initial: seq<int>)
    requires ValidPath(path, initial) && IsGoal(path[|path| - 1].board)
    ensures Manhattan(initial) <= |path| - 1
  {
    var bs := seq(|path|, i requires 0 <= i < |path| => path[i].board);
    assert forall i :: 0 <= i < |bs| - 1 ==> SlidesTo(bs[i], bs[i + 1]) by {
      forall i | 0 <= i < |bs| - 1 ensures SlidesTo(bs[i], bs[i + 1]) {
        assert Step(path[i], path[i + 1]);
      }
    }
    assert WellFormed(path[0]);
    HeuristicAdmissible(bs);
  }

  /** The state before the loop: the initial node alone, on the frontier, nothing explored. */
  lemma InitialInv(initial: seq<int>, root: Node)
    requires ValidBoard(initial)
    requires root == MakeNode(initial, 0, None, None)
    ensures Inv([root], [0], {}, initial)
  {
  }

  /** Adding successors of an arena node keeps the arena rooted and linked. */
  lemma ArenaExtend(arena: seq<Node>, initial: seq<int>, idx: nat, pushed: seq<Node>)
    requires ArenaOk(arena, initial) && idx < |arena|
    requires forall j :: 0 <= j < |pushed| ==> Successor(arena[idx], idx, pushed[j])
    ensures ArenaOk(arena + pushed, initial)
  {
    var a := arena + pushed;
    assert a[0] == arena[0];
    forall k | 1 <= k < |a| ensures Linked(a, k) {
      if k < |arena| {
        assert a[k] == arena[k];
        assert Linked(arena, k);
        assert a[arena[k].parent.value] == arena[arena[k].parent.value];
      } else {
        assert a[k] == pushed[k - |arena|];
        assert a[idx] == arena[idx];
      }
    }
  }

  /** Removing a frontier entry whose board is already explored keeps the invariant. */
  lemma SkipKeepsInv(arena: seq<Node>, frontier: seq<nat>, explored: set<seq<int>>, initial: seq<int>, pos: nat)
    requires Inv(arena, frontier, explored, initial)
    requires pos < |frontier| && arena[frontier[pos]].board in explored
    ensures Inv(arena, Remove(frontier, pos), explored, initial)
  {
    var rest := Remove(frontier, pos);
    forall k | 0 <= k < |arena| ensures arena[k].board in explored || k in rest {
      if arena[k].board !in explored {
        var i :| 0 <= i < |frontier| && frontier[i] == k;
        assert i != pos;
        assert rest[if i < pos then i else i - 1] == k;
      }
    }
    forall b, c | b in explored && SlidesTo(b, c) ensures c in explored || OnFrontier(arena, rest, c) {
      if c !in explored {
        assert OnFrontier(arena, frontier, c);
        var i :| 0 <= i < |frontier| && frontier[i] < |arena| && arena[frontier[i]].board == c;
        assert i != pos;
        var i' := if i < pos then i else i - 1;
        assert rest[i'] == frontier[i];
      }
    }
  }

  /**
   Exploring the node at frontier entry pos (whose board is new and not the
   goal) and pushing its unexplored neighbours keeps the invariant.
   */
  lemma ExploreKeepsInv(arena: seq<Node>, frontier: seq<nat>, explored: set<seq<int>>, initial: seq<int>,
                        pos: nat, nbrs: seq<Node>, pushed: seq<Node>)
    requires Inv(arena, frontier, explored, initial)
    requires pos < |frontier| && frontier[pos] < |arena|
    requires arena[frontier[pos]].board !in explored && !IsGoal(arena[frontier[pos]].board)
    requires AllSuccessors(arena[frontier[pos]], frontier[pos], nbrs)
    requires forall c :: SlidesTo(arena[frontier[pos]].board, c) ==> HasBoard(nbrs, c)
    requires pushed == Unexplored(nbrs, explored + {arena[frontier[pos]].board})
    ensures Inv(arena + pushed, Remove(frontier, pos) + Span(|arena|, |pushed|),
                explored + {arena[frontier[pos]].board}, initial)
  {
    var idx := frontier[pos];
    var cur := arena[idx].board;
    var ex := explored + {cur};
    var a := arena + pushed;
    var rest := Remove(frontier, pos);
    var f := rest + Span(|arena|, |pushed|);
    UnexploredBoards(nbrs, ex);
    forall j | 0 <= j < |pushed| ensures Successor(arena[idx], idx, pushed[j]) {
      assert pushed[j] in nbrs;
    }
    ArenaExtend(arena, initial, idx, pushed);
    forall i | 0 <= i < |f| ensures f[i] < |a| {
      if i < |rest| { assert rest[i] == frontier[if i < pos then i else i + 1]; }
    }
    ExploreCovered(arena, frontier, explored, pos, pushed);
    ExploreClosed(arena, frontier, explored, pos, nbrs, pushed);
  }

  lemma ExploreCovered(arena: seq<Node>, frontier: seq<nat>, explored: set<seq<int>>, pos: nat, pushed: seq<Node>)
    requires Covered(arena, frontier, explored)
    requires pos < |frontier| && frontier[pos] < |arena|
    ensures Covered(arena + pushed, Remove(frontier, pos) + Span(|arena|, |pushed|),
                    explored + {arena[frontier[pos]].board})
  {
    var idx := frontier[pos];
    var ex := explored + {arena[idx].board};
    var a := arena + pushed;
    var rest := Remove(frontier, pos);
    var f := rest + Span(|arena|, |pushed|);
    forall k | 0 <= k < |a| ensures a[k].board in ex || k in f {
      if k < |arena| {
        assert a[k] == arena[k];
        if k != idx && arena[k].board !in explored {
          var i :| 0 <= i < |frontier| && frontier[i] == k;
          assert i != pos;
          assert f[if i < pos then i else i - 1] == k;
        }
      } else {
        assert f[|rest| + (k - |arena|)] == k;
      }
    }
  }

  lemma ExploreClosed(arena: seq<Node>, frontier: seq<nat>, explored: set<seq<int>>,
                      pos: nat, nbrs: seq<Node>, pushed: seq<Node>)
    requires Closed(arena, frontier, explored)
    requires pos < |frontier| && frontier[pos] < |arena|
    requires forall c :: SlidesTo(arena[frontier[pos]].board, c) ==> HasBoard(nbrs, c)
    requires forall c :: HasBoard(nbrs, c) && c !in explored + {arena[frontier[pos]].board} ==> HasBoard(pushed, c)
    ensures Closed(arena + pushed, Remove(frontier, pos) + Span(|arena|, |pushed|),
                   explored + {arena[frontier[pos]].board})
  {
    var idx := frontier[pos];
    var cur := arena[idx].board;
    var ex := explored + {cur};
    var a := arena + pushed;
    var rest := Remove(frontier, pos);
    var f := rest + Span(|arena|, |pushed|);
    forall b, c | b in ex && SlidesTo(b, c) ensures c in ex || OnFrontier(a, f, c) {
      if c !in ex {
        if b == cur {
          PushedOnFrontier(arena, rest, pushed, c);
        } else {
          KeptOnFrontier(arena, frontier, pos, pushed, c);
        }
      }
    }
  }

  /** A pushed board is on the new frontier. */
  lemma PushedOnFrontier(arena: seq<Node>, rest: seq<nat>, pushed: seq<Node>, c: seq<int>)
    requires HasBoard(pushed, c)
    ensures OnFrontier(arena + pushed, rest + Span(|arena|, |pushed|), c)
  {
    var f := rest + Span(|arena|, |pushed|);
    var j :| 0 <= j < |pushed| && pushed[j].board == c;
    assert f[|rest| + j] == |arena| + j;
    assert (arena + pushed)[|arena| + j] == pushed[j];
  }

  /** A board on the frontier, other than the one popped, stays on it. */
  lemma KeptOnFrontier(arena: seq<Node>, frontier: seq<nat>, pos: nat, pushed: seq<Node>, c: seq<int>)
    requires pos < |frontier| && frontier[pos] < |arena|
    requires OnFrontier(arena, frontier, c) && c != arena[frontier[pos]].board
    ensures OnFrontier(arena + pushed, Remove(frontier, pos) + Span(|arena|, |pushed|), c)
  {
    var f := Remove(frontier, pos) + Span(|arena|, |pushed|);
    var i :| 0 <= i < |frontier| && frontier[i] < |arena| && arena[frontier[i]].board == c;
    var i' := if i < pos then i else i - 1;
    assert f[i'] == frontier[i];
    assert (arena + pushed)[frontier[i]] == arena[frontier[i]];
  }

  /** When the frontier is empty the explored boards form a closed set without the goal. */
  lemma EmptyFrontierExhausted(arena: seq<Node>, explored: set<seq<int>>, initial: seq<int>)
    requires Inv(arena, [], explored, initial)
    ensures Exhausted(explored, initial)
  {
    assert arena[0].board in explored;
    forall b, c | b in explored && SlidesTo(b, c) ensures c in explored {
      assert !OnFrontier(arena, [], c);
    }
  }

  /** A returned solution: a valid path that ends on the goal, no shorter than the heuristic promises. */
  predicate Solution(path: seq<Node>, initial: seq<int>) {
    && ValidPath(path, initial)
    && IsGoal(path[|path| - 1].board)
    && Manhattan(initial) <= |path| - 1
  }

  /**
   The frontier sizes seen at the heads of the iterations: each at least one,
   none above the reported maximum, which is one of them (or zero when there
   were none).
   */
  predicate SizesOk(sizes: seq<nat>, maxFrontier: nat) {
    && (forall i :: 0 <= i < |sizes| ==> 1 <= sizes[i] <= maxFrontier)
    && (|sizes| == 0 ==> maxFrontier == 0)
    && (|sizes| > 0 ==> maxFrontier in sizes)
  }

  /** No stop request was seen at the heads of the first n iterations. */
  predicate NotStoppedBefore(stop: nat -> bool, n: nat) {
    forall i: nat :: i < n ==> !stop(i)
  }

  /** The path made of the initial node alone is a solution when the initial board is the goal. */
  lemma SingletonPath(initial: seq<int>, root: Node)
    requires ValidBoard(initial) && IsGoal(initial)
    requires root == MakeNode(initial, 0, None, None)
    ensures Solution([root], initial)
  {
    ManhattanZeroIffGoal(initial);
  }

  /** Recording the frontier size at the head of one more iteration. */
  lemma RecordSize(sizes: seq<nat>, maxFrontier: nat, size: nat, stop: nat -> bool)
    requires SizesOk(sizes, maxFrontier) && size >= 1
    requires NotStoppedBefore(stop, |sizes|) && !stop(|sizes|)
    ensures SizesOk(sizes + [size], if size > maxFrontier then size else maxFrontier)
    ensures NotStoppedBefore(stop, |sizes + [size]|)
  {
    var s := sizes + [size];
    var m := if size > maxFrontier then size else maxFrontier;
    if size > maxFrontier {
      assert s[|sizes|] == m;
    } else {
      var i :| 0 <= i < |sizes| && sizes[i] == maxFrontier;
      assert s[i] == m;
    }
  }

  /** Entry pos heads frontier f: no entry comes before it under the node order. */
  predicate Heads(arena: seq<Node>, f: seq<nat>, pos: nat) {
    && pos < |f|
    && InArena(f, |arena|)
    && forall j :: 0 <= j < |f| ==> !Before(arena[f[j]], arena[f[pos]])
  }

  /**
   The nodes pushed after popping `node` (arena index idx) when `explored`
   holds the boards explored before the pop: none when its board was already
   explored or is the goal; otherwise its neighbours, in order, whose boards
   are not explored once its own board is.
   */
  function Pushed(node: Node, idx: nat, explored: set<seq<int>>): seq<Node>
    requires WellFormed(node)
  {
    if node.board in explored || IsGoal(node.board) then []
    else Unexplored(Neighbors(node, idx), explored + {node.board})
  }

  /**
   The frontier f becomes g by removing entry pos, which heads f and holds
   board b, keeping the others in order, and appending entries whose arena
   nodes are ps, in order.
   */
  predicate Appends(arena: seq<Node>, f: seq<nat>, b: seq<int>, g: seq<nat>, pos: nat, ps: seq<Node>) {
    && Heads(arena, f, pos)
    && arena[f[pos]].board == b
    && |g| == |f| - 1 + |ps|
    && g[..|f| - 1] == Remove(f, pos)
    && forall k :: |f| - 1 <= k < |g| ==> g[k] < |arena| && arena[g[k]] == ps[k - (|f| - 1)]
  }

  /**
   One iteration's change of the frontier from f to g, through entry pos, with
   `explored` the boards explored before it: the entries appended hold exactly
   the nodes pushed for the removed one.
   */
  predicate AdvanceAt(arena: seq<Node>, f: seq<nat>, b: seq<int>, g: seq<nat>, pos: nat, explored: set<seq<int>>) {
    && Heads(arena, f, pos)
    && WellFormed(arena[f[pos]])
    && Appends(arena, f, b, g, pos, Pushed(arena[f[pos]], f[pos], explored))
  }

  /** One iteration's change of the frontier, through some heading entry. */
  ghost predicate Advance(arena: seq<Node>, f: seq<nat>, b: seq<int>, g: seq<nat>, explored: set<seq<int>>) {
    exists pos: nat :: AdvanceAt(arena, f, b, g, pos, explored)
  }

  /**
   Iteration i of a logged run: it starts from frontier trace[i], records its
   size, pops pops[i] with the boards of pops[..i] explored, and leaves
   trace[i + 1].
   */
  ghost predicate Logs(arena: seq<Node>, trace: seq<seq<nat>>, pops: seq<seq<int>>, sizes: seq<nat>, i: nat) {
    && i < |sizes| && i < |pops| && i + 1 < |trace|
    && sizes[i] == |trace[i]|
    && Advance(arena, trace[i], pops[i], trace[i + 1], Elements(pops[..i]))
  }

  /**
   The log of a run of n iterations: the frontiers at the head of each
   iteration and after the last (trace), starting from the initial node
   alone, the board popped by each iteration (pops), and the frontier size
   recorded by each (sizes).
   */
  ghost predicate Run(arena: seq<Node>, trace: seq<seq<nat>>, pops: seq<seq<int>>, sizes: seq<nat>) {
    && |trace| == |sizes| + 1 && |pops| == |sizes|
    && trace[0] == [0]
    && forall i: nat :: i < |sizes| ==> Logs(arena, trace, pops, sizes, i)
  }

  /** The boards of a log of pops, gathered in order. */
  function Elements(pops: seq<seq<int>>): set<seq<int>>
    decreases |pops|
  {
    if |pops| == 0 then {} else Elements(pops[..|pops| - 1]) + {pops[|pops| - 1]}
  }

  /** The gathered boards are exactly those in the log. */
  lemma {:induction false} ElementsIn(pops: seq<seq<int>>)
    ensures forall b :: b in Elements(pops) <==> b in pops
    decreases |pops|
  {
    if |pops| > 0 {
      var front := pops[..|pops| - 1];
      ElementsIn(front);
      assert pops == front + [pops[|pops| - 1]];
    }
  }

  /**
   The recorded frontier sizes and the explored boards are those of a run of
   the search from the initial board.
   */
  ghost predicate Logged(initial: seq<int>, sizes: seq<nat>, explored: set<seq<int>>) {
    exists arena, trace, pops ::
      ArenaOk(arena, initial) && Run(arena, trace, pops, sizes) && explored == Elements(pops)
  }

  /** Before the first iteration the log is empty. */
  lemma EmptyLog(initial: seq<int>)
    requires ValidBoard(initial)
    ensures Logged(initial, [], {})
  {
    InitialInv(initial, MakeNode(initial, 0, None, None));
    assert Run([MakeNode(initial, 0, None, None)], [[0]], [], []);
  }

  /** Growing the arena does not change what an iteration did. */
  lemma AdvanceGrows(arena: seq<Node>, arena': seq<Node>, f: seq<nat>, b: seq<int>, g: seq<nat>,
                     explored: set<seq<int>>)
    requires arena <= arena' && Advance(arena, f, b, g, explored)
    ensures Advance(arena', f, b, g, explored)
  {
    var pos: nat :| AdvanceAt(arena, f, b, g, pos, explored);
    var ps := Pushed(arena[f[pos]], f[pos], explored);
    AppendsGrows(arena, arena', f, b, g, pos, ps);
    assert arena'[f[pos]] == arena[f[pos]];
    assert AdvanceAt(arena', f, b, g, pos, explored);
  }

  /** Growing the arena keeps the removed and appended entries' nodes. */
  lemma AppendsGrows(arena: seq<Node>, arena': seq<Node>, f: seq<nat>, b: seq<int>, g: seq<nat>, pos: nat, ps: seq<Node>)
    requires arena <= arena' && Appends(arena, f, b, g, pos, ps)
    ensures Appends(arena', f, b, g, pos, ps)
  {
  }

  /** Extending a run's log by one more iteration. */
  lemma RunStep(arena: seq<Node>, arena': seq<Node>, trace: seq<seq<nat>>, pops: seq<seq<int>>, sizes: seq<nat>,
                b: seq<int>, g: seq<nat>)
    requires Run(arena, trace, pops, sizes) && arena <= arena'
    requires Advance(arena', trace[|trace| - 1], b, g, Elements(pops))
    ensures Run(arena', trace + [g], pops + [b], sizes + [|trace[|trace| - 1]|])
    ensures Elements(pops + [b]) == Elements(pops) + {b}
  {
    var t, p, z := trace + [g], pops + [b], sizes + [|trace[|trace| - 1]|];
    forall i: nat | i < |z| ensures Logs(arena', t, p, z, i) {
      assert p[..i] == pops[..i];
      if i < |sizes| {
        assert Logs(arena, trace, pops, sizes, i);
        assert t[i] == trace[i] && t[i + 1] == trace[i + 1] && p[i] == pops[i] && z[i] == sizes[i];
        AdvanceGrows(arena, arena', trace[i], pops[i], trace[i + 1], Elements(pops[..i]));
      } else {
        assert pops[..i] == pops;
      }
    }
    assert p[..|pops|] == pops;
  }

  /** The path reported when the node at arena index idx holds the goal. */
  method GoalPath(arena: seq<Node>, initial: seq<int>, idx: nat) returns (path: seq<Node>)
    requires ArenaOk(arena, initial) && idx < |arena| && IsGoal(arena[idx].board)
    ensures Solution(path, initial) && path[|path| - 1] == arena[idx]
  {
    path := PathTo(arena, initial, idx);
    PathAdmissible(path, initial);
  }

  /**
   The A* search of the solver. `stop(i)` is the stop request as seen at the
   head of iteration i. Besides the outcome, for the contract only, it
   returns the explored boards, the frontier size observed at the head of each
   iteration, and whether the loop ended on a stop request.
   */
  method Solve(initial: seq<int>, stop: nat -> bool)
    returns (out: Outcome, ghost explored: set<seq<int>>, ghost sizes: seq<nat>, ghost cancelled: bool)
    requires ValidBoard(initial)
    ensures 0 in initial
    ensures out.stats.solvable <==> out.path.Some?
    ensures !IsSolvable(initial) ==>
              out == Outcome(None, Stats(false, 0, 0, None)) && explored == {} && sizes == []
    ensures IsGoal(initial) ==>
              out == Outcome(Some([MakeNode(initial, 0, None, None)]), Stats(true, 0, 0, Some(0)))
              && explored == {} && sizes == []
    ensures out.path.Some? ==>
              Solution(out.path.value, initial) && out.stats.solutionLength == Some(|out.path.value| - 1)
    ensures out.path.None? ==> out.stats.solutionLength == None
    ensures out.stats.explored == |explored| && |explored| <= |sizes|
    ensures SizesOk(sizes, out.stats.maxFrontier) && NotStoppedBefore(stop, |sizes|)
    ensures cancelled ==> out.path == None && stop(|sizes|) && IsSolvable(initial) && !IsGoal(initial)
    ensures IsSolvable(initial) && !IsGoal(initial) && stop(0) ==> cancelled && explored == {}
    ensures IsSolvable(initial) && out.path.None? && !cancelled ==> Exhausted(explored, initial)
    ensures out.path.None? && !cancelled ==> GoalUnreachable(initial)
    ensures out.path.Some? && !IsGoal(initial) ==> out.path.value[|out.path.value| - 1].board in explored
    ensures Logged(initial, sizes, explored)
  {
    ValidHasBlank(initial);
    EmptyLog(initial);
    explored := {};
    sizes := [];
    cancelled := false;
    var solvable := CheckSolvable(initial);
    if IsGoal(initial) {
      GoalBoardSolvable(initial);
    }
    if !solvable {
      out := Outcome(None, Stats(false, 0, 0, None));
      return;
    }
    var root := MakeNode(initial, 0, None, None);
    if IsGoal(initial) {
      SingletonPath(initial, root);
      out := Outcome(Some([root]), Stats(true, 0, 0, Some(0)));
      return;
    }
    out, explored, sizes, cancelled := Explore(initial, stop);
  }

  /**
   One iteration of the main loop, after the stop check: pop the cheapest
   frontier entry; if its board is explored, drop it; otherwise explore it,
   and either report the path to it (when it is the goal) or push its
   unexplored neighbours. `popped` is the board of the entry removed.
   */
  method Iterate(arena: seq<Node>, frontier: seq<nat>, explored: set<seq<int>>, initial: seq<int>)
    returns (arena': seq<Node>, frontier': seq<nat>, explored': set<seq<int>>, popped: seq<int>, found: Option<seq<Node>>)
    requires Inv(arena, frontier, explored, initial) && |frontier| > 0
    ensures exists i :: 0 <= i < |frontier| && arena[frontier[i]].board == popped
              && forall j :: 0 <= j < |frontier| ==> !Before(arena[frontier[j]], arena[frontier[i]])
    ensures popped in explored'
    ensures explored' == explored + {popped}
    ensures popped in explored ==> |frontier'| < |frontier| && found.None?
    ensures popped !in explored ==> Sequences(|initial|) - explored' < Sequences(|initial|) - explored
    ensures found.Some? <==> IsGoal(popped) && popped !in explored
    ensures found.Some? ==> Solution(found.value, initial) && found.value[|found.value| - 1].board == popped
    ensures found.None? ==> Inv(arena', frontier', explored', initial)
    ensures ArenaOk(arena', initial) && arena <= arena'
    ensures Advance(arena', frontier, popped, frontier', explored)
  {
    var pos := CheapestIndex(arena, frontier);
    var idx := frontier[pos];
    var current := arena[idx];
    popped := current.board;
    assert arena[frontier[pos]].board == popped;
    var rest := Remove(frontier, pos);
    NodeWellFormed(arena, initial, idx);
    arena', frontier', explored', found := arena, rest, explored, None;
    if popped in explored {
      SkipKeepsInv(arena, frontier, explored, initial, pos);
      PopOnly(arena, frontier, pos, explored);
      return;
    }
    SequencesComplete(popped);
    explored' := explored + {popped};
    if IsGoal(popped) {
      var path := GoalPath(arena, initial, idx);
      found := Some(path);
      PopOnly(arena, frontier, pos, explored);
      return;
    }
    var nbrs := Neighbors(current, idx);
    var pushed := Unexplored(nbrs, explored');
    ExploreKeepsInv(arena, frontier, explored, initial, pos, nbrs, pushed);
    PopAdvance(arena, frontier, pos, explored, pushed);
    frontier' := rest + Span(|arena|, |pushed|);
    arena' := arena + pushed;
  }

  /**
   Removing the heading entry and appending, as new arena nodes, the nodes
   pushed for it is one iteration's change.
   */
  lemma PopAdvance(arena: seq<Node>, frontier: seq<nat>, pos: nat, explored: set<seq<int>>, pushed: seq<Node>)
    requires InArena(frontier, |arena|) && pos < |frontier| && WellFormed(arena[frontier[pos]])
    requires forall i :: 0 <= i < |frontier| ==> !Before(arena[frontier[i]], arena[frontier[pos]])
    requires pushed == Pushed(arena[frontier[pos]], frontier[pos], explored)
    ensures Advance(arena + pushed, frontier, arena[frontier[pos]].board,
                    Remove(frontier, pos) + Span(|arena|, |pushed|), explored)
  {
    var a := arena + pushed;
    var g := Remove(frontier, pos) + Span(|arena|, |pushed|);
    assert forall k :: 0 <= k < |arena| ==> a[k] == arena[k];
    assert Heads(a, frontier, pos) && a[frontier[pos]] == arena[frontier[pos]];
    assert g[..|frontier| - 1] == Remove(frontier, pos);
    forall k | |frontier| - 1 <= k < |g| ensures g[k] < |a| && a[g[k]] == pushed[k - (|frontier| - 1)] {
      assert g[k] == |arena| + (k - (|frontier| - 1));
    }
    assert AdvanceAt(a, frontier, arena[frontier[pos]].board, g, pos, explored);
  }

  /** Removing the heading entry of an explored or goal board, and pushing nothing, is one iteration's change. */
  lemma PopOnly(arena: seq<Node>, frontier: seq<nat>, pos: nat, explored: set<seq<int>>)
    requires InArena(frontier, |arena|) && pos < |frontier| && WellFormed(arena[frontier[pos]])
    requires forall i :: 0 <= i < |frontier| ==> !Before(arena[frontier[i]], arena[frontier[pos]])
    requires arena[frontier[pos]].board in explored || IsGoal(arena[frontier[pos]].board)
    ensures Advance(arena, frontier, arena[frontier[pos]].board, Remove(frontier, pos), explored)
  {
    PopAdvance(arena, frontier, pos, explored, []);
    assert arena + [] == arena && Remove(frontier, pos) + Span(|arena|, 0) == Remove(frontier, pos);
  }

  /**
   The bookkeeping of the main loop: the log of the run so far ends at the
   current frontier and its pops are the explored boards; the recorded sizes
   are bounded by the maximum; no stop was seen; and the counter of explored
   boards is the size of the explored set.
   */
  ghost predicate Books(arena: seq<Node>, frontier: seq<nat>, explored: set<seq<int>>, sizes: seq<nat>,
                        maxFrontier: nat, count: nat, trace: seq<seq<nat>>, pops: seq<seq<int>>,
                        stop: nat -> bool) {
    && Run(arena, trace, pops, sizes) && trace[|sizes|] == frontier
    && explored == Elements(pops)
    && SizesOk(sizes, maxFrontier) && NotStoppedBefore(stop, |sizes|)
    && count == |explored| && count <= |sizes|
  }

  /** The bookkeeping before the first iteration. */
  /** The state the main loop starts from: the initial node alone on the frontier, nothing explored or logged. */
  method Start(initial: seq<int>, stop: nat -> bool)
    returns (arena: seq<Node>, frontier: seq<nat>, explored: set<seq<int>>,
             sizes: seq<nat>, maxFrontier: nat, count: nat,
             ghost trace: seq<seq<nat>>, ghost pops: seq<seq<int>>)
    requires ValidBoard(initial)
    ensures Inv(arena, frontier, explored, initial)
    ensures Books(arena, frontier, explored, sizes, maxFrontier, count, trace, pops, stop)
    ensures sizes == [] && frontier == [0]
  {
    var root := MakeNode(initial, 0, None, None);
    arena, frontier, explored, sizes, maxFrontier, count := [root], [0], {}, [], 0, 0;
    trace, pops := [[0]], [];
    InitialInv(initial, root);
  }

  /** One iteration of the main loop keeps its bookkeeping. */
  lemma BooksStep(arena: seq<Node>, frontier: seq<nat>, explored: set<seq<int>>, sizes: seq<nat>,
                  maxFrontier: nat, count: nat, trace: seq<seq<nat>>, pops: seq<seq<int>>, stop: nat -> bool,
                  arena': seq<Node>, frontier': seq<nat>, explored': set<seq<int>>, popped: seq<int>)
    requires Books(arena, frontier, explored, sizes, maxFrontier, count, trace, pops, stop)
    requires |frontier| > 0 && !stop(|sizes|)
    requires explored' == explored + {popped} && arena <= arena' && Advance(arena', frontier, popped, frontier', explored)
    ensures Books(arena', frontier', explored', sizes + [|frontier|],
                  if |frontier| > maxFrontier then |frontier| else maxFrontier,
                  count + if popped in explored then 0 else 1,
                  trace + [frontier'], pops + [popped], stop)
  {
    RecordSize(sizes, maxFrontier, |frontier|, stop);
    RunStep(arena, arena', trace, pops, sizes, popped, frontier');
    AddedCount(explored, popped);
  }

  /**
   One pass of the main loop after the stop check: record the frontier size
   (line 137), run one iteration, count a newly explored board (line 145), and
   extend the log of the run.
   */
  method Round(initial: seq<int>, stop: nat -> bool, arena: seq<Node>, frontier: seq<nat>,
               explored: set<seq<int>>, sizes: seq<nat>, maxFrontier: nat, count: nat,
               ghost trace: seq<seq<nat>>, ghost pops: seq<seq<int>>)
    returns (arena': seq<Node>, frontier': seq<nat>, explored': set<seq<int>>, sizes': seq<nat>,
             maxFrontier': nat, count': nat, found: Option<seq<Node>>,
             ghost trace': seq<seq<nat>>, ghost pops': seq<seq<int>>)
    requires Inv(arena, frontier, explored, initial) && |frontier| > 0 && !stop(|sizes|)
    requires Books(arena, frontier, explored, sizes, maxFrontier, count, trace, pops, stop)
    ensures Books(arena', frontier', explored', sizes', maxFrontier', count', trace', pops', stop)
    ensures ArenaOk(arena', initial) && sizes' == sizes + [|frontier|]
    ensures Sequences(|initial|) - explored' < Sequences(|initial|) - explored
            || (explored' == explored && |frontier'| < |frontier|)
    ensures found.Some? ==> Solution(found.value, initial) && found.value[|found.value| - 1].board == pops'[|sizes'| - 1]
    ensures found.None? ==> Inv(arena', frontier', explored', initial)
  {
    var popped;
    arena', frontier', explored', popped, found := Iterate(arena, frontier, explored, initial);
    BooksStep(arena, frontier, explored, sizes, maxFrontier, count, trace, pops, stop,
              arena', frontier', explored', popped);
    sizes' := sizes + [|frontier|];
    maxFrontier' := if |frontier| > maxFrontier then |frontier| else maxFrontier;
    count' := count + if popped in explored then 0 else 1;
    trace', pops' := trace + [frontier'], pops + [popped];
  }

  /** Why the main loop ended: the frontier ran dry, a stop was requested, or the goal was reached. */
  datatype Halt = Drained | StopRequested | GoalReached(path: seq<Node>)

  /**
   The main loop of the search, entered with a board that is not the goal.
   Each iteration first polls the stop request, then records the frontier
   size and runs one iteration. It returns the final state of the search,
   and the log of the run: the frontier at the head of each iteration and at
   the end, and the board each iteration popped.
   */
  method MainLoop(initial: seq<int>, stop: nat -> bool)
    returns (arena: seq<Node>, frontier: seq<nat>, explored: set<seq<int>>,
             sizes: seq<nat>, maxFrontier: nat, count: nat, halt: Halt,
             ghost trace: seq<seq<nat>>, ghost pops: seq<seq<int>>)
    requires ValidBoard(initial) && !IsGoal(initial)
    ensures Books(arena, frontier, explored, sizes, maxFrontier, count, trace, pops, stop)
    ensures ArenaOk(arena, initial)
    ensures |sizes| == 0 ==> halt == StopRequested
    ensures halt.GoalReached? ==> Solution(halt.path, initial) && halt.path[|halt.path| - 1].board == pops[|sizes| - 1]
    ensures !halt.GoalReached? ==> Inv(arena, frontier, explored, initial)
    ensures halt == Drained ==> frontier == []
    ensures halt == StopRequested ==> stop(|sizes|)
  {
    arena, frontier, explored, sizes, maxFrontier, count, trace, pops := Start(initial, stop);
    halt := Drained;
    while |frontier| > 0
      invariant Inv(arena, frontier, explored, initial)
      invariant Books(arena, frontier, explored, sizes, maxFrontier, count, trace, pops, stop)
      invariant |sizes| == 0 ==> frontier == [0]
      invariant halt == Drained
      decreases Sequences(|initial|) - explored, |frontier|
    {
      if stop(|sizes|) {
        halt := StopRequested;
        break;
      }
      var found;
      arena, frontier, explored, sizes, maxFrontier, count, found, trace, pops :=
        Round(initial, stop, arena, frontier, explored, sizes, maxFrontier, count, trace, pops);
      if found.Some? {
        halt := GoalReached(found.value);
        break;
      }
    }
  }

  /** The search proper, entered with a board that is not the goal: the main loop and its report. */
  method Explore(initial: seq<int>, stop: nat -> bool)
    returns (out: Outcome, explored: set<seq<int>>, sizes: seq<nat>, cancelled: bool)
    requires ValidBoard(initial) && !IsGoal(initial)
    ensures out.stats.solvable <==> out.path.Some?
    ensures out.path.Some? ==>
              Solution(out.path.value, initial) && out.stats.solutionLength == Some(|out.path.value| - 1)
    ensures out.path.None? ==> out.stats.solutionLength == None
    ensures out.stats.explored == |explored| && |explored| <= |sizes|
    ensures SizesOk(sizes, out.stats.maxFrontier) && NotStoppedBefore(stop, |sizes|)
    ensures cancelled ==> out.path == None && stop(|sizes|)
    ensures stop(0) ==> cancelled && explored == {}
    ensures out.path.None? && !cancelled ==> Exhausted(explored, initial) && GoalUnreachable(initial)
    ensures out.path.Some? ==> out.path.value[|out.path.value| - 1].board in explored
    ensures Logged(initial, sizes, explored)
  {
    var arena, frontier, maxFrontier, count, halt;
    ghost var trace, pops;
    arena, frontier, explored, sizes, maxFrontier, count, halt, trace, pops := MainLoop(initial, stop);
    cancelled := halt == StopRequested;
    match halt
    case GoalReached(path) =>
      out := Outcome(Some(path), Stats(true, count, maxFrontier, Some(|path| - 1)));
    case StopRequested =>
      out := Outcome(None, Stats(false, count, maxFrontier, None));
    case Drained =>
      EmptyFrontierExhausted(arena, explored, initial);
      ExhaustedGoalUnreachable(explored, initial);
      out := Outcome(None, Stats(false, count, maxFrontier, None));
  }
}

=== FILE: shuffle.dfy ===
/**
 Random scrambles: a fixed start board followed by a sequence of legal slides,
 each chosen from the blank's legal target cells. The random choices are an
 input sequence of picks.
 */
module Shuffle {
  import opened Board
  import opened Moves
  import opened Solvability

  /** The board 0, 1, ..., 15: the blank in the top-left cell, tiles in order after it. */
  function Identity(): (r: seq<int>)
    ensures |r| == Cells && forall k :: 0 <= k < Cells ==> r[k] == k
  {
    seq(Cells, k requires 0 <= k < Cells => k)
  }

  /** Cells the blank at e may move into, listed up, down, left, right as the scramblers list them. */
  function LegalTargets(e: nat): (r: seq<nat>)
    requires e < Cells
    ensures 2 <= |r| <= 4
    ensures forall k :: 0 <= k < |r| ==> Adjacent(e, r[k])
    ensures forall n :: Adjacent(e, n) ==> n in r
  {
    (if Row(e) > 0 then [e - Side] else [])
    + (if Row(e) < Side - 1 then [e + Side] else [])
    + (if Col(e) > 0 then [e - 1] else [])
    + (if Col(e) < Side - 1 then [e + 1] else [])
  }

  /** One scramble step: `random.choice` over the legal targets is the pick modulo their number. */
  function ShuffleStep(b: seq<int>, pick: nat): (r: seq<int>)
    requires ValidBoard(b)
    ensures SlidesTo(b, r) && ValidBoard(r)
  {
    ValidHasBlank(b);
    var e := Blank(b);
    var targets := LegalTargets(e);
    var n := targets[pick % |targets|];
    SlideValid(b, n);
    Swap(b, e, n)
  }

  /** Apply one scramble step per pick, in order. */
  function Scramble(b: seq<int>, picks: seq<nat>): (r: seq<int>)
    requires ValidBoard(b)
    ensures ValidBoard(r)
    ensures 0 in b && 0 in r && (IsSolvable(r) <==> IsSolvable(b))
    decreases |picks|
  {
    ValidHasBlank(b);
    if |picks| == 0 then b
    else
      var c := ShuffleStep(b, picks[0]);
      SlidePreservesSolvability(b, c);
      Scramble(c, picks[1..])
  }

  lemma IdentityValid()
    ensures ValidBoard(Identity()) && 0 in Identity() && Blank(Identity()) == 0
  {
    BlankUnique(Identity(), 0);
  }

  /** A board with the blank top-left and the tiles in increasing order fails the parity test. */
  lemma BlankFirstSortedUnsolvable(b: seq<int>)
    requires ValidBoard(b) && b[0] == 0
    requires forall i, j :: 1 <= i < j < |b| ==> b[i] < b[j]
    ensures 0 in b && !IsSolvable(b)
  {
    BlankUnique(b, 0);
    DropLeadingBlank(b);
    SortedNoInversions(b[1..]);
    assert !ParityRule(0, 0);
  }

  /** The board 0, 1, ..., 15 fails the parity test: no inversions, but the blank is on the top row. */
  lemma IdentityUnsolvable()
    ensures 0 in Identity() && !IsSolvable(Identity())
  {
    IdentityValid();
    BlankFirstSortedUnsolvable(Identity());
  }

  /**
   The puzzle generator as written: it scrambles 0, 1, ..., 15. Whatever the
   random picks, the result fails the solvability test.
   */
  function RandomPuzzleAsWritten(picks: seq<nat>): (r: seq<int>)
    ensures ValidBoard(r) && 0 in r
  {
    IdentityValid();
    Scramble(Identity(), picks)
  }

  lemma RandomPuzzleAsWrittenNeverSolvable(picks: seq<nat>)
    ensures !IsSolvable(RandomPuzzleAsWritten(picks))
  {
    IdentityUnsolvable();
    IdentityValid();
  }

  /**
   The scramble of the board panel, and the generator as intended: start from
   the solved board, so that every result passes the solvability test.
   */
  function ShufflePuzzle(picks: seq<nat>): (r: seq<int>)
    ensures ValidBoard(r) && 0 in r && IsSolvable(r)
  {
    GoalBoardValid(Goal());
    ScrambleSolvedSolvable(Goal(), picks);
    Scramble(Goal(), picks)
  }

  /** Scrambling a solved board always leaves a board that passes the solvability test. */
  lemma ScrambleSolvedSolvable(b: seq<int>, picks: seq<nat>)
    requires IsGoal(b)
    ensures ValidBoard(b) && 0 in Scramble(b, picks) && IsSolvable(Scramble(b, picks))
  {
    GoalBoardValid(b);
    GoalBoardSolvable(b);
  }

  /** No scramble of the solved board ever reaches 0, 1, ..., 15. */
  lemma ShuffleNeverReachesIdentity(picks: seq<nat>)
    ensures ShufflePuzzle(picks) != Identity()
  {
    IdentityUnsolvable();
  }
}

=== FILE: solvability.dfy ===
/**
 The solvability oracle: the classic 15-puzzle parity rule combining the number
 of inversions among the tiles with the blank's row counted from the bottom.
 */
module Solvability {
  import opened Board
  import opened Moves

  /** The tiles in board order with the blank dropped. */
  function RemoveBlank(s: seq<int>): seq<int> {
    if |s| == 0 then [] else (if s[0] == 0 then [] else [s[0]]) + RemoveBlank(s[1..])
  }

  /** Number of values in t below x. */
  function CountBelow(x: int, t: seq<int>): nat {
    if |t| == 0 then 0 else (if t[0] < x then 1 else 0) + CountBelow(x, t[1..])
  }

  /** Number of pairs i < j with s[i] > s[j]. */
  function Inversions(s: seq<int>): nat {
    if |s| == 0 then 0 else CountBelow(s[0], s[1..]) + Inversions(s[1..])
  }

  /**
   A board with its blank on an odd row counted from the bottom (1 = bottom row)
   is solvable exactly when its tiles have an even number of inversions; with the
   blank on an even row, exactly when they have an odd number.
   */
  predicate IsSolvable(b: seq<int>)
    requires 0 in b
  {
    ParityRule(Inversions(RemoveBlank(b)), Blank(b))
  }

  /** The parity rule on an inversion count and the blank's cell. */
  predicate ParityRule(inversions: int, blank: int) {
    var emptyRow := 4 - blank / Side;
    if emptyRow % 2 == 1 then inversions % 2 == 0 else inversions % 2 == 1
  }

  /** Moving the blank one row while changing the inversion count by an odd amount keeps the verdict. */
  lemma ParityRuleFlip(i1: int, e1: int, i2: int, e2: int)
    requires (i1 - i2) % 2 == 1
    requires Row(e1) - Row(e2) == 1 || Row(e2) - Row(e1) == 1
    ensures ParityRule(i1, e1) <==> ParityRule(i2, e2)
  {
  }

  /** The verdict depends on the blank's row only. */
  lemma ParityRuleSameRow(inversions: int, e1: int, e2: int)
    requires Row(e1) == Row(e2)
    ensures ParityRule(inversions, e1) <==> ParityRule(inversions, e2)
  {
  }

  /** Inversion count by the double loop over pairs of positions. */
  method CountInversions(flat: seq<int>) returns (inversions: nat)
    ensures inversions == Inversions(flat)
  {
    inversions := 0;
    var i := 0;
    while i < |flat|
      invariant 0 <= i <= |flat|
      invariant inversions + Inversions(flat[i..]) == Inversions(flat)
    {
      assert flat[i..][1..] == flat[i + 1..];
      var j := i + 1;
      var row := inversions;
      while j < |flat|
        invariant i + 1 <= j <= |flat|
        invariant inversions == row + CountBelow(flat[i], flat[i + 1..j])
      {
        CountBelowConcat(flat[i], flat[i + 1..j], [flat[j]]);
        assert flat[i + 1..j + 1] == flat[i + 1..j] + [flat[j]];
        if flat[i] > flat[j] {
          inversions := inversions + 1;
        }
        j := j + 1;
      }
      assert flat[i + 1..j] == flat[i + 1..];
      i := i + 1;
    }
  }

  /**
   The oracle as a procedure: drop the blank, count inversions, locate the
   blank's row. A board it rejects can never be slid to the goal.
   */
  method CheckSolvable(board: seq<int>) returns (solvable: bool)
    requires 0 in board
    ensures solvable <==> IsSolvable(board)
    ensures !solvable ==> GoalUnreachable(board)
  {
    if !IsSolvable(board) {
      forall bs | |bs| >= 1 && bs[0] == board && SlidePath(bs)
        ensures !IsGoal(bs[|bs| - 1])
      {
        UnsolvableUnreachable(bs);
      }
    }
    var flat := RemoveBlank(board);
    var inversions := CountInversions(flat);
    var emptyRow := 4 - Blank(board) / Side;
    if emptyRow % 2 == 1 {
      solvable := inversions % 2 == 0;
    } else {
      solvable := inversions % 2 == 1;
    }
  }

  lemma {:induction false} CountBelowConcat(x: int, a: seq<int>, b: seq<int>)
    ensures CountBelow(x, a + b) == CountBelow(x, a) + CountBelow(x, b)
  {
    if |a| > 0 {
      assert (a + b)[0] == a[0];
      assert (a + b)[1..] == a[1..] + b;
      CountBelowConcat(x, a[1..], b);
    } else {
      assert a + b == b;
    }
  }

  lemma {:induction false} RemoveBlankConcat(a: seq<int>, b: seq<int>)
    ensures RemoveBlank(a + b) == RemoveBlank(a) + RemoveBlank(b)
  {
    if |a| > 0 {
      assert (a + b)[0] == a[0];
      assert (a + b)[1..] == a[1..] + b;
      RemoveBlankConcat(a[1..], b);
    } else {
      assert a + b == b;
    }
  }

  lemma {:induction false} RemoveBlankNoBlank(s: seq<int>)
    requires 0 !in s
    ensures RemoveBlank(s) == s
  {
    if |s| > 0 {
      RemoveBlankNoBlank(s[1..]);
    }
  }

  lemma {:induction false} CountBelowNone(x: int, t: seq<int>)
    requires forall k :: 0 <= k < |t| ==> x < t[k]
    ensures CountBelow(x, t) == 0
  {
    if |t| > 0 {
      CountBelowNone(x, t[1..]);
    }
  }

  /** A strictly increasing sequence has no inversions. */
  lemma {:induction false} SortedNoInversions(s: seq<int>)
    requires forall i, j :: 0 <= i < j < |s| ==> s[i] < s[j]
    ensures Inversions(s) == 0
  {
    if |s| > 0 {
      CountBelowNone(s[0], s[1..]);
      SortedNoInversions(s[1..]);
    }
  }

  /**
   Exchanging two adjacent distinct values adds one inversion when they were in
   order and removes one when they were not.
   */
  lemma {:induction false} SwapAdjacentInversions(p: seq<int>, x: int, y: int, s: seq<int>)
    requires x != y
    ensures Inversions(p + [x, y] + s) == Inversions(p + [y, x] + s) + (if x > y then 1 else -1)
  {
    if |p| == 0 {
      assert p + [x, y] + s == [x] + ([y] + s);
      assert p + [y, x] + s == [y] + ([x] + s);
      assert ([x] + ([y] + s))[1..] == [y] + s;
      assert ([y] + ([x] + s))[1..] == [x] + s;
      assert ([y] + s)[1..] == s;
      assert ([x] + s)[1..] == s;
    } else {
      var u, v := p + [x, y] + s, p + [y, x] + s;
      assert u[1..] == p[1..] + [x, y] + s;
      assert v[1..] == p[1..] + [y, x] + s;
      CountBelowConcat(p[0], p[1..] + [x, y], s);
      CountBelowConcat(p[0], p[1..], [x, y]);
      CountBelowConcat(p[0], p[1..] + [y, x], s);
      CountBelowConcat(p[0], p[1..], [y, x]);
      SwapAdjacentInversions(p[1..], x, y, s);
    }
  }

  /**
   Carrying one value across three others changes the inversion count by an
   odd amount: it is three adjacent exchanges.
   */
  lemma RotateParity(p: seq<int>, t: int, x1: int, x2: int, x3: int, s: seq<int>)
    requires t != x1 && t != x2 && t != x3
    ensures (Inversions(p + ([t, x1, x2, x3] + s)) - Inversions(p + ([x1, x2, x3, t] + s))) % 2 == 1
  {
    assert p + ([t, x1, x2, x3] + s) == p + [t, x1, x2, x3] + s;
    assert p + ([x1, x2, x3, t] + s) == p + [x1, x2, x3, t] + s;
    assert p + [t, x1, x2, x3] + s == p + [t, x1] + ([x2, x3] + s);
    assert p + [x1, t, x2, x3] + s == p + [x1, t] + ([x2, x3] + s);
    SwapAdjacentInversions(p, t, x1, [x2, x3] + s);
    assert p + [x1, t, x2, x3] + s == (p + [x1]) + [t, x2] + ([x3] + s);
    assert p + [x1, x2, t, x3] + s == (p + [x1]) + [x2, t] + ([x3] + s);
    SwapAdjacentInversions(p + [x1], t, x2, [x3] + s);
    assert p + [x1, x2, t, x3] + s == (p + [x1, x2]) + [t, x3] + s;
    assert p + [x1, x2, x3, t] + s == (p + [x1, x2]) + [x3, t] + s;
    SwapAdjacentInversions(p + [x1, x2], t, x3, s);
  }

  /** Three pieces in a row, dropping blanks piece by piece. */
  lemma RemoveBlankConcat3(a: seq<int>, w: seq<int>, z: seq<int>)
    ensures RemoveBlank(a + (w + z)) == RemoveBlank(a) + (RemoveBlank(w) + RemoveBlank(z))
  {
    RemoveBlankConcat(a, w + z);
    RemoveBlankConcat(w, z);
  }

  /** A sequence is its prefix, the window [lo, lo + k) and the rest, in that order. */
  lemma CutAround(s: seq<int>, lo: nat, k: nat)
    requires lo + k <= |s|
    ensures s == s[..lo] + (s[lo..lo + k] + s[lo + k..])
  {
  }

  /** Cutting s around the window [lo, lo + k) and dropping blanks piece by piece. */
  lemma RemoveBlankAround(s: seq<int>, lo: nat, k: nat)
    requires lo + k <= |s|
    ensures RemoveBlank(s) == RemoveBlank(s[..lo]) + (RemoveBlank(s[lo..lo + k]) + RemoveBlank(s[lo + k..]))
  {
    CutAround(s, lo, k);
    RemoveBlankConcat3(s[..lo], s[lo..lo + k], s[lo + k..]);
  }

  /** Dropping the blank from a window that starts with it. */
  lemma DropLeadingBlank(w: seq<int>)
    requires |w| > 0 && w[0] == 0 && 0 !in w[1..]
    ensures RemoveBlank(w) == w[1..]
  {
    RemoveBlankNoBlank(w[1..]);
  }

  /** Dropping the blank from a window that ends with it. */
  lemma DropTrailingBlank(w: seq<int>)
    requires |w| > 0 && w[|w| - 1] == 0 && 0 !in w[..|w| - 1]
    ensures RemoveBlank(w) == w[..|w| - 1]
  {
    assert w == w[..|w| - 1] + [0];
    RemoveBlankConcat(w[..|w| - 1], [0]);
    RemoveBlankNoBlank(w[..|w| - 1]);
  }

  /** A window of two cells, as a sequence display. */
  lemma Window2(s: seq<int>, lo: nat)
    requires lo + 2 <= |s|
    ensures s[lo..lo + 2] == [s[lo], s[lo + 1]]
  {
  }

  /** A window of five cells, as a sequence display. */
  lemma Window5(s: seq<int>, lo: nat)
    requires lo + 5 <= |s|
    ensures s[lo..lo + 5] == [s[lo], s[lo + 1], s[lo + 2], s[lo + 3], s[lo + 4]]
  {
  }

  lemma PairTiles(t: int)
    requires t != 0
    ensures RemoveBlank([0, t]) == [t] && RemoveBlank([t, 0]) == [t]
  {
    assert [0, t][1..] == [t];
    assert [t, 0][..1] == [t];
    DropLeadingBlank([0, t]);
    DropTrailingBlank([t, 0]);
  }

  lemma WindowTiles(t: int, x1: int, x2: int, x3: int)
    requires t != 0 && x1 != 0 && x2 != 0 && x3 != 0
    ensures RemoveBlank([0, x1, x2, x3, t]) == [x1, x2, x3, t]
    ensures RemoveBlank([t, x1, x2, x3, 0]) == [t, x1, x2, x3]
  {
    assert [0, x1, x2, x3, t][1..] == [x1, x2, x3, t];
    assert [t, x1, x2, x3, 0][..4] == [t, x1, x2, x3];
    DropLeadingBlank([0, x1, x2, x3, t]);
    DropTrailingBlank([t, x1, x2, x3, 0]);
  }

  /**
   Boards that agree outside the window [lo, lo + k) have tile orders that agree
   outside the window's tiles.
   */
  lemma SameOutsideWindow(b: seq<int>, c: seq<int>, lo: nat, k: nat)
    requires lo + k <= |b| == |c|
    requires forall i :: 0 <= i < |b| && !(lo <= i < lo + k) ==> c[i] == b[i]
    ensures RemoveBlank(b) == RemoveBlank(b[..lo]) + (RemoveBlank(b[lo..lo + k]) + RemoveBlank(b[lo + k..]))
    ensures RemoveBlank(c) == RemoveBlank(b[..lo]) + (RemoveBlank(c[lo..lo + k]) + RemoveBlank(b[lo + k..]))
  {
    RemoveBlankAround(b, lo, k);
    RemoveBlankAround(c, lo, k);
    assert c[..lo] == b[..lo];
    assert c[lo + k..] == b[lo + k..];
  }

  /** A sideways slide leaves the tiles in the same order. */
  lemma HorizontalSlideKeepsTiles(b: seq<int>, e: nat, n: nat)
    requires e < |b| && n < |b| && b[e] == 0 && b[n] != 0
    requires n == e + 1 || e == n + 1
    ensures RemoveBlank(Swap(b, e, n)) == RemoveBlank(b)
  {
    var c := Swap(b, e, n);
    var t := b[n];
    var lo := if e < n then e else n;
    SameOutsideWindow(b, c, lo, 2);
    Window2(b, lo);
    Window2(c, lo);
    PairTiles(t);
  }

  /**
   The tile orders before and after a vertical slide, around the window of five
   cells from the upper to the lower of the two exchanged cells.
   */
  lemma VerticalSlideTiles(b: seq<int>, e: nat, n: nat) returns (p: seq<int>, s: seq<int>)
    requires e < |b| && n < |b| && b[e] == 0
    requires n == e + Side || e == n + Side
    requires var lo := if e < n then e else n;
             b[n] != 0 && b[lo + 1] != 0 && b[lo + 2] != 0 && b[lo + 3] != 0
    ensures var lo := if e < n then e else n;
            var t, x1, x2, x3 := b[n], b[lo + 1], b[lo + 2], b[lo + 3];
            var c := Swap(b, e, n);
            if e < n then
              RemoveBlank(b) == p + ([x1, x2, x3, t] + s) && RemoveBlank(c) == p + ([t, x1, x2, x3] + s)
            else
              RemoveBlank(b) == p + ([t, x1, x2, x3] + s) && RemoveBlank(c) == p + ([x1, x2, x3, t] + s)
  {
    var c := Swap(b, e, n);
    var lo := if e < n then e else n;
    var t, x1, x2, x3 := b[n], b[lo + 1], b[lo + 2], b[lo + 3];
    SameOutsideWindow(b, c, lo, 5);
    p, s := RemoveBlank(b[..lo]), RemoveBlank(b[lo + 5..]);
    WindowTiles(t, x1, x2, x3);
    Window5(b, lo);
    Window5(c, lo);
  }

  lemma OddNegate(x: int, y: int)
    requires (x - y) % 2 == 1
    ensures (y - x) % 2 == 1
  {
  }

  /** A vertical slide carries one tile across three others in the tile order. */
  lemma VerticalSlideFlipsParity(b: seq<int>, e: nat, n: nat)
    requires e < |b| && n < |b| && b[e] == 0
    requires n == e + Side || e == n + Side
    requires var lo := if e < n then e else n;
             && b[n] != 0 && b[lo + 1] != 0 && b[lo + 2] != 0 && b[lo + 3] != 0
             && b[n] != b[lo + 1] && b[n] != b[lo + 2] && b[n] != b[lo + 3]
    ensures (Inversions(RemoveBlank(b)) - Inversions(RemoveBlank(Swap(b, e, n)))) % 2 == 1
  {
    if e < n {
      TileRisesParity(b, e, n);
    } else {
      TileSinksParity(b, e, n);
    }
  }

  /** The blank moves down: the tile below it moves back over the three tiles between. */
  lemma TileRisesParity(b: seq<int>, e: nat, n: nat)
    requires n == e + Side && n < |b| && b[e] == 0
    requires b[n] != 0 && b[e + 1] != 0 && b[e + 2] != 0 && b[e + 3] != 0
    requires b[n] != b[e + 1] && b[n] != b[e + 2] && b[n] != b[e + 3]
    ensures (Inversions(RemoveBlank(b)) - Inversions(RemoveBlank(Swap(b, e, n)))) % 2 == 1
  {
    var p, s := VerticalSlideTiles(b, e, n);
    var t, x1, x2, x3 := b[n], b[e + 1], b[e + 2], b[e + 3];
    RotateBackParity(p, t, x1, x2, x3, s);
    var front, back := Inversions(p + ([t, x1, x2, x3] + s)), Inversions(p + ([x1, x2, x3, t] + s));
    assert Inversions(RemoveBlank(b)) == back && Inversions(RemoveBlank(Swap(b, e, n))) == front;
  }

  /** Moving a tile back over three others also changes the inversion count by an odd amount. */
  lemma RotateBackParity(p: seq<int>, t: int, x1: int, x2: int, x3: int, s: seq<int>)
    requires t != x1 && t != x2 && t != x3
    ensures (Inversions(p + ([x1, x2, x3, t] + s)) - Inversions(p + ([t, x1, x2, x3] + s))) % 2 == 1
  {
    RotateParity(p, t, x1, x2, x3, s);
    OddNegate(Inversions(p + ([t, x1, x2, x3] + s)), Inversions(p + ([x1, x2, x3, t] + s)));
  }

  /** The blank moves up: the tile above it moves forward over the three tiles between. */
  lemma TileSinksParity(b: seq<int>, e: nat, n: nat)
    requires e == n + Side && e < |b| && b[e] == 0
    requires b[n] != 0 && b[n + 1] != 0 && b[n + 2] != 0 && b[n + 3] != 0
    requires b[n] != b[n + 1] && b[n] != b[n + 2] && b[n] != b[n + 3]
    ensures (Inversions(RemoveBlank(b)) - Inversions(RemoveBlank(Swap(b, e, n)))) % 2 == 1
  {
    var p, s := VerticalSlideTiles(b, e, n);
    var t, x1, x2, x3 := b[n], b[n + 1], b[n + 2], b[n + 3];
    RotateParity(p, t, x1, x2, x3, s);
    var front, back := Inversions(p + ([t, x1, x2, x3] + s)), Inversions(p + ([x1, x2, x3, t] + s));
    assert Inversions(RemoveBlank(b)) == front && Inversions(RemoveBlank(Swap(b, e, n))) == back;
  }

  /** A sideways slide keeps the tile order and the blank's row, hence the verdict. */
  lemma HorizontalSlideVerdict(b: seq<int>, n: nat)
    requires ValidBoard(b) && 0 in b && Adjacent(Blank(b), n)
    requires n == Blank(b) + 1 || Blank(b) == n + 1
    ensures 0 in Swap(b, Blank(b), n) && (IsSolvable(Swap(b, Blank(b), n)) <==> IsSolvable(b))
  {
    var e := Blank(b);
    SlideValid(b, n);
    AdjacentOffsets(e, n);
    assert b[n] != 0 by {
      if n < e { assert b[n] != b[e]; } else { assert b[e] != b[n]; }
    }
    HorizontalSlideKeepsTiles(b, e, n);
    ParityRuleSameRow(Inversions(RemoveBlank(b)), e, n);
  }

  /** A vertical slide flips the inversion parity and moves the blank one row, keeping the verdict. */
  lemma VerticalSlideVerdict(b: seq<int>, n: nat)
    requires ValidBoard(b) && 0 in b && Adjacent(Blank(b), n)
    requires n == Blank(b) + Side || Blank(b) == n + Side
    ensures 0 in Swap(b, Blank(b), n) && (IsSolvable(Swap(b, Blank(b), n)) <==> IsSolvable(b))
  {
    var e := Blank(b);
    var c := Swap(b, e, n);
    SlideValid(b, n);
    AdjacentOffsets(e, n);
    var lo := if e < n then e else n;
    assert b[n] != 0 && b[lo + 1] != 0 && b[lo + 2] != 0 && b[lo + 3] != 0 by {
      assert b[n] != b[e] && b[lo + 1] != b[e] && b[lo + 2] != b[e] && b[lo + 3] != b[e];
    }
    assert b[n] != b[lo + 1] && b[n] != b[lo + 2] && b[n] != b[lo + 3];
    VerticalSlideFlipsParity(b, e, n);
    ParityRuleFlip(Inversions(RemoveBlank(b)), e, Inversions(RemoveBlank(c)), n);
  }

  /**
   Every slide keeps the verdict: sideways slides change neither the tile order
   nor the blank's row; vertical slides flip both parities.
   */
  lemma SlidePreservesSolvability(b: seq<int>, c: seq<int>)
    requires SlidesTo(b, c)
    ensures 0 in c && (IsSolvable(c) <==> IsSolvable(b))
  {
    var e := Blank(b);
    var n :| 0 <= n < Cells && Adjacent(e, n) && c == Swap(b, e, n);
    AdjacentOffsets(e, n);
    if n == e + 1 || e == n + 1 {
      HorizontalSlideVerdict(b, n);
    } else {
      VerticalSlideVerdict(b, n);
    }
  }

  /** Every board the goal test accepts passes the solvability test: no inversions, blank on the bottom row. */
  lemma GoalBoardSolvable(b: seq<int>)
    requires IsGoal(b)
    ensures 0 in b && IsSolvable(b)
  {
    GoalBoardValid(b);
    DropTrailingBlank(b);
    SortedNoInversions(b[..Cells - 1]);
    assert ParityRule(0, Cells - 1);
  }

  /** The solved board passes the test. */
  lemma GoalSolvable()
    ensures 0 in Goal() && IsSolvable(Goal())
  {
    GoalBoardSolvable(Goal());
  }

  /**
   Exchanging the tiles in cells i and i + 1 of a solved board, both on the
   tile side of the blank, leaves one inversion with the blank on the bottom row.
   */
  lemma SwapInGoalUnsolvable(g: seq<int>, i: nat)
    requires IsGoal(g) && i < Cells - 2
    ensures var b := Swap(g, i, i + 1);
            ValidBoard(b) && 0 in b && !IsSolvable(b)
  {
    GoalBoardValid(g);
    var b := Swap(g, i, i + 1);
    SwapValid(g, i, i + 1);
    BlankUnique(b, Cells - 1);
    var p, s := g[..i], g[i + 2..Cells - 1];
    assert b[..Cells - 1] == p + [i + 2, i + 1] + s;
    assert g[..Cells - 1] == p + [i + 1, i + 2] + s;
    DropTrailingBlank(b);
    SortedNoInversions(g[..Cells - 1]);
    SwapAdjacentInversions(p, i + 2, i + 1, s);
    assert !ParityRule(1, Cells - 1);
  }

  /**
   The solved board with two neighbouring tiles exchanged and the blank in
   place fails the test: for instance 14 and 15 (i = 13), or 1 and 2 (i = 0).
   */
  lemma SwappedTilesUnsolvable(i: nat)
    requires i < Cells - 2
    ensures var b := Swap(Goal(), i, i + 1);
            ValidBoard(b) && 0 in b && !IsSolvable(b)
  {
    SwapInGoalUnsolvable(Goal(), i);
  }

  /**
   Slides never change the verdict and the goal passes the test, so a board
   the test rejects stays rejected along every sequence of slides and never
   reaches the goal.
   */
  lemma {:induction false} UnsolvableUnreachable(bs: seq<seq<int>>)
    requires |bs| >= 1 && 0 in bs[0] && !IsSolvable(bs[0]) && SlidePath(bs)
    ensures 0 in bs[|bs| - 1] && !IsSolvable(bs[|bs| - 1]) && !IsGoal(bs[|bs| - 1])
  {
    if |bs| > 1 {
      var rest := bs[1..];
      assert SlidesTo(bs[0], bs[1]);
      SlidePreservesSolvability(bs[0], bs[1]);
      assert SlidePath(rest) by {
        forall i | 0 <= i < |rest| - 1 ensures SlidesTo(rest[i], rest[i + 1]) {
          assert rest[i] == bs[i + 1] && rest[i + 1] == bs[i + 2];
        }
      }
      UnsolvableUnreachable(rest);
      assert rest[|rest| - 1] == bs[|bs| - 1];
    }
    if IsGoal(bs[|bs| - 1]) {
      GoalBoardSolvable(bs[|bs| - 1]);
    }
  }
}
